=== FILE: README.md ===
# PDF Content Analyzer — a Dafny model of its analysis pipeline

This project models the deterministic part of `PDFAnalyzer` in the PDF
Content Analyzer and Summarizer (`main.py`). The script loads the pages of
every PDF in a folder. It asks a language model to classify each file and
to summarize it with a type-specific prompt. It then assembles a result
dictionary and renders it as a markdown report. The model covers:

- the **classifier** (`categorize_content`). It makes one request over at
  most 3000 characters. A failed request degrades to `{"error": msg}` and
  an unparsable reply to `{"raw_analysis": reply}`.
- the **summarizer** (`generate_summary`). The lowered content type selects
  one of three templates (task, story, generic). At most 4000 characters
  are sent. A failed request becomes the text `Error generating summary: …`.
- the **orchestrator** (`process_documents`). It groups pages by
  `source_file` (`"unknown"` when missing) in first-seen order and joins
  each file's pages with a blank line. It classifies and summarizes each
  file, fills `files_processed`, `categorized_content` and `summaries`, and
  routes each file to `task_lists`, `stories`, or neither.
- the **markdown report** of `save_results`, modelled as the sequence of
  chunks handed to `f.write`. The file's content is their concatenation.

The language model and `json.loads` are black boxes. They are passed in as
function values: `llm: Prompt -> Reply` and `parse: string -> Option<Object>`.
Every property below therefore holds for every behaviour of the model, and
for every parser whose objects carry a string `content_type` when they
carry one at all (`Classifier.ParserKeepsTypeText`). The clock reading (`datetime.now().isoformat()`) is a string
parameter. A Python `dict` is modelled as `PyDict.Dict`, a map together with
its key insertion order, because `items()` iterates in that order.

Modules: `Base` (option, distinct sequences, first occurrence),
`Text` (slicing, `join`, `lower`, `str(int)`), `PyDict`, `Services`
(JSON values, prompts, replies), `Classifier`, `Summarizer`, `Orchestrator`,
`ReportWriter` and `Scenarios` (concrete runs).

## Model

| member | source | states |
|---|---|---|
| Base.FirstIndex | main.py:208 | the position of the first occurrence of a value, `|xs|` exactly when absent, with no earlier occurrence |
| Base.FirstSeenSnoc | main.py:206-210 | walking one more element appends it to the first-seen order when it is new and leaves the order unchanged when it was seen |
| Base.FirstSeenOrderUnique | main.py:205-213 | the first-seen order of a sequence is unique, so "the distinct sources in first-seen order" determines `files_processed` completely |
| Text.Prefix | main.py:122 | `s[:n]` is a prefix of `s` whose length is `min(|s|, n)` |
| Text.Join | main.py:217 | `sep.join(parts)` is empty for no parts, the part itself for one part, and its length is the parts' total plus one separator between each pair of neighbours |
| Text.JoinSnoc | main.py:217 | joining one more page appends exactly the separator and that page, so pages appear in their order |
| Text.Lower | main.py:133 | lowering keeps the length, leaves no upper-case letter, keeps every other character in place and turns each upper-case letter into its lower-case partner |
| Text.LowerIdempotent | main.py:133 | lowering an already lowered content type changes nothing |
| Text.NatToDecimal | main.py:268 | `str(n)` is a non-empty string of digits without a leading zero, and exactly `"0"` for 0 |
| Text.DecimalRoundTrip | main.py:268 | the rendered page and file counts read back as the same numbers |
| PyDict.Put | main.py:208-210 | `d[k] = v` keeps the dict well-formed, updates the map at `k` only, keeps an existing key in place and appends a new key to the iteration order |
| Services.Items | main.py:276-279 | a `for` loop over a value visits at least one item exactly when the value is truthy (what `if task_info['tasks']:` tests); a list visits its items, a string one-character strings |
| Services.ItemsOfStringRejoin | main.py:287-290 | the characters a loop visits in a string join back to that string, so `", ".join` over a string value interleaves its characters |
| Services.ShowRendering | main.py:275 | an f-string shows a string value as itself and a list as `[]`, `['a']`, `['a', 'b']` |
| Classifier.ClassifyRequest | main.py:122 | the classification prompt carries at most 3000 characters, a prefix of the text, and all of a short text |
| Classifier.Categorize | main.py:121-130 | a failed request gives exactly `{"error": message}`, an unparsable reply exactly `{"raw_analysis": reply}`, a parsed reply the parsed object; every result has a string `content_type` when it has one |
| Classifier.CategorizeIgnoresTail | main.py:122 | text after the first 3000 characters never changes the classification |
| Classifier.DegradedIsGeneral | main.py:124-130 | a failed or unparsable classification yields the content type `"general"` |
| Summarizer.VocabulariesDisjoint | main.py:133-150 | no content type is both task-like and story-like |
| Summarizer.VocabularyExamples | main.py:133-150 | the vocabularies ignore case (`TODO`, `Action`, `Fiction` match) but are otherwise exact (`tasks` and ` task` match neither) |
| Summarizer.TemplateFor | main.py:133-178 | exactly one template is chosen: task iff the lowered type is in {task, action, todo}, story iff in {story, narrative, fiction}, generic otherwise |
| Summarizer.GeneralIsGeneric | main.py:132 | the default content type `"general"` selects the generic template |
| Summarizer.TemplateForIgnoresCase | main.py:133-150 | two content types equal up to letter case select the same template |
| Summarizer.TemplateForLowered | main.py:133 | lowering a content type first does not change the template |
| Summarizer.SummaryRequest | main.py:180-183 | the summary prompt uses the selected template around at most the first 4000 characters of the text |
| Summarizer.GenerateSummaryIgnoresCase | main.py:133-178 | the summary is the same whether or not the content type is lowered first |
| Summarizer.GenerateSummaryIgnoresTail | main.py:183 | text after the first 4000 characters never changes the summary |
| Orchestrator.Group | main.py:205-210 | the grouping loop yields a well-formed dict |
| Orchestrator.GroupOrder | main.py:205-213 | the grouped files are the distinct page sources, each once, in first-seen order |
| Orchestrator.GroupContents | main.py:206-210 | each file's page list is exactly its pages' contents in load order; a source with no group has no pages |
| Orchestrator.GroupKeysSnoc | main.py:206-210 | a page from a new source appends that source to the files; a page from a known source leaves them unchanged |
| Orchestrator.Record | main.py:227-251 | storing a file's results appends it to `files_processed`, keeps both dicts well-formed and leaves the date and page count alone |
| Orchestrator.RecordMaps | main.py:227-232 | storing a file sets `categorized_content[f]` to its classification and `summaries[f]` to its content type and summary, and changes no other file's entry |
| Orchestrator.Step | main.py:213-251 | one loop iteration appends the file to `files_processed`, keeps both dicts well-formed and leaves the date and page count alone |
| Orchestrator.ProcessFiles | main.py:213-251 | after `n` iterations `files_processed` is the first `n` grouped files |
| Orchestrator.ProcessDocuments | main.py:188-253 | no pages gives `{}` (no report); otherwise a report whose `total_documents` is the number of pages (not files) and whose date is the clock reading |
| Orchestrator.TaskEntryDefaults | main.py:236-241 | a task entry names the file, carries its summary, and takes `action_items`/`urgency_level` from the classification, defaulting to an empty (falsy) list and `"none"` |
| Orchestrator.StoryEntryDefaults | main.py:245-250 | a story entry names the file, carries its summary, and takes `key_entities`/`main_topics` from the classification, each defaulting to an empty (falsy) list |
| Orchestrator.InitialConsistent | main.py:194-202 | the freshly initialised result dictionary carries the clock reading and the page count, lists no file and no entries, and satisfies the report invariant |
| Orchestrator.InOrderSnoc | main.py:227-251 | appending a new file after all processed files keeps the earlier entries in order and puts a new entry last |
| Orchestrator.RecordLists | main.py:235-251 | storing a file appends its entry to `task_lists` iff its type is task-like, to `stories` iff story-like, and otherwise leaves both lists alone |
| Orchestrator.RoutedUpdate | main.py:235-251 | appending a new file to the task files iff task-like and to the story files iff story-like keeps the routing of every file exact |
| Orchestrator.TasksBuiltUpdate | main.py:235-242 | recording a file without a task entry, and appending its entry built from its classification and summary, keeps every task entry built from its file's results |
| Orchestrator.StoriesBuiltUpdate | main.py:244-251 | recording a file without a story entry, and appending its entry, keeps every story entry built from its file's results |
| Orchestrator.RecordConsistent | main.py:227-251 | storing a new file's results, whatever the classification and summary, preserves the report invariant |
| Orchestrator.StepConsistent | main.py:213-251 | an iteration on a new file preserves the report invariant |
| Orchestrator.ProcessFilesConsistent | main.py:213-251 | after every iteration of the per-file loop the report invariant holds |
| Orchestrator.StepRecords | main.py:216-232 | an iteration records the classification and summary computed from the file's own pages and leaves other files' results as they were |
| Orchestrator.ProcessFilesRecords | main.py:213-232 | after every iteration each recorded classification and summary is computed from that file's own pages |
| Orchestrator.FilesInFirstSeenOrder | main.py:205-227 | `files_processed` lists each distinct page source exactly once, in first-seen order |
| Orchestrator.ReportConsistent | main.py:227-251 | both maps are keyed by exactly `files_processed` in the same order; task and story entries name processed files in processing order; a file has a task entry iff its type is task-like and a story entry iff story-like; entries carry the classification's fields with defaults `[]`/`"none"` and the file's summary |
| Orchestrator.FileResults | main.py:216-232 | each file's classification and summary are computed from its pages joined by `"\n\n"`, and `summaries[f].content_type` is the classification's type or `"general"` |
| Orchestrator.TasksAndStoriesDisjoint | main.py:235-251 | no file appears in both `task_lists` and `stories` |
| Orchestrator.RoutingMatchesTemplate | main.py:235-244 | a file is a task list exactly when it was summarized with the task template, and a story exactly when with the story template |
| ReportWriter.NotSection | main.py:266-298 | a write that does not start with `## ` is not a section heading |
| ReportWriter.HeaderHasNoSection | main.py:266-268 | the title and metadata lines are not section headings |
| ReportWriter.TaskWritesHaveNoSection | main.py:273-280 | no write of a task block is a section heading, whatever the file name, items or summary |
| ReportWriter.TaskBlocksHaveNoSection | main.py:273-280 | no write of any task block is a section heading |
| ReportWriter.StoryWritesHaveNoSection | main.py:285-291 | no write of a story block is a section heading |
| ReportWriter.StoryBlocksHaveNoSection | main.py:285-291 | no write of any story block is a section heading |
| ReportWriter.SummaryBlocksHaveNoSection | main.py:295-298 | no write of a summary block is a section heading |
| ReportWriter.SectionsShape | main.py:266-298 | each section contributes its own heading and otherwise only writes that are not section headings |
| ReportWriter.TaskSectionIffTasks | main.py:271-272 | `## Task Lists` is written iff `task_lists` is non-empty |
| ReportWriter.StorySectionIffStories | main.py:283-284 | `## Stories` is written iff `stories` is non-empty |
| ReportWriter.SummaryBlocksInOrder | main.py:295-298 | each `summaries` entry gives three writes, heading, type and summary, in the dict's order |
| ReportWriter.SummaryTail | main.py:294-298 | whatever precedes it, the summary section ends the writes: its heading `3n + 1` writes from the end, then one `### name` heading every three writes |
| ReportWriter.SummarySectionAlways | main.py:294-298 | `## Document Summaries` is always written, last, followed by one `### name` heading per `summaries` key in order |
| ReportWriter.ActionItemsIffTasks | main.py:276-279 | `**Action Items:**` is written in an entry's block iff the entry has action items, and is followed by their checkbox lines in order |
| ReportWriter.TaskBlocksAppend | main.py:273-280 | the task entries' blocks are written one after another, in list order |
| ReportWriter.TaskBlocksSplit | main.py:273-280 | the `i`-th task entry's block sits between the blocks of the entries before it and those after it |
| ReportWriter.TaskEntryPlaced | main.py:271-280 | in the report, each task entry's whole block follows the `## Task Lists` heading and the earlier entries' blocks, and precedes the later entries' blocks and the stories and summaries sections |
| ReportWriter.EveryTaskEntryRendered | main.py:273-280 | every write of every task entry's block is written to the report |
| ReportWriter.ActionItemsInBlocks | main.py:273-279 | a run of task blocks holds `**Action Items:**` iff one of its entries has action items |
| ReportWriter.NoLabelOutsideTasks | main.py:266-298 | every write of the report that opens like `**Action Items:**` belongs to a task block, and every task block write is in the report |
| ReportWriter.ActionItemsInReport | main.py:271-279 | the report carries `**Action Items:**` iff some task entry has action items |
| ReportWriter.StoryLinesIffItems | main.py:287-290 | the Characters and Themes lines are written in an entry's block iff its lists are non-empty, each joined with `", "` |
| ReportWriter.StoryBlocksAppend | main.py:285-291 | the story entries' blocks are written one after another, in list order |
| ReportWriter.StoryBlocksSplit | main.py:285-291 | the `i`-th story entry's block sits between the blocks of the entries before it and those after it |
| ReportWriter.StoryEntryPlaced | main.py:283-291 | in the report, each story entry's whole block follows the task section, the `## Stories` heading and the earlier entries' blocks, and precedes the later entries' blocks and the summaries section |
| ReportWriter.EveryStoryEntryRendered | main.py:285-291 | every write of every story entry's block is written to the report |
| ReportWriter.StoryLabelsInWrites | main.py:286-291 | within one story block, a `**Characters:**` line appears iff the entry has characters, and a `**Themes:**` line iff it has themes |
| ReportWriter.StoryLabelsInBlocks | main.py:285-291 | a run of story blocks holds a Characters line iff one of its entries has characters, and a Themes line iff one has themes |
| ReportWriter.NoLabelInTaskBlocks | main.py:273-280 | no task block write opens with a `**` label other than the urgency and action-items labels |
| ReportWriter.NoLabelInStoryBlocks | main.py:285-291 | no story block write opens with a `**` label other than the characters and themes labels |
| ReportWriter.NoLabelInSummaryBlocks | main.py:295-298 | no summary block write opens with a `**` label other than the type and summary labels |
| ReportWriter.NoLabelInHeadings | main.py:266-294 | neither the header nor a section heading opens with a `**` label other than the date and file-count labels |
| ReportWriter.NoLabelOutsideStories | main.py:266-298 | a write opening with a story label is in the report iff it is in a story block |
| ReportWriter.StoryLinesInReport | main.py:283-291 | the report holds a `**Characters:**` line iff some story entry has characters, and a `**Themes:**` line iff some story entry has themes |
| ReportWriter.ConcatAppend | main.py:265-298 | writing two runs of chunks in turn puts their texts one after the other in the file |
| ReportWriter.MarkdownLayout | main.py:265-298 | the report file's text is the header's text, then the task section's, the stories section's and the summaries section's, in that order |
| ReportWriter.MarkdownHeader | main.py:266-268 | the report file opens with the title; the second write is the `**Generated:**` line with the date, the third the `**Files Processed:**` line with the page and file counts as decimals, which read back as the counts |
| Scenarios.TodoFileBecomesOneTaskEntry | main.py:235-242 | a to-do file classified as `task` with two action items and urgency `medium` yields exactly that one task entry and no story |
| Scenarios.UnparsableClassificationIsGeneral | main.py:121-251 | an unparsable classification is stored as `{"raw_analysis": reply}`, typed `"general"`, summarized with the generic template (the model's generic answer is the one recorded), and routed nowhere |

## Left out

- PDF loading (`load_pdfs`, main.py:54-80): file-system globbing and PDF text extraction are I/O. The model takes the loaded page list as input.
- The vector store (`create_vectorstore`, main.py:82-92, and the chunk splitter set up at main.py:48-52): its output is never consumed, and chunking and embedding are external libraries.
- Prompt wording: a prompt is identified by its template constructor and the text it embeds. The model's answers and `json.loads` are parameters.
- Services: the language model is a function of the prompt, so two identical prompts get the same reply in the model. The real service is sampled with temperature 0.3.
- The JSON file, the timestamp and file creation in `save_results` (main.py:255-264): these are I/O and clock access. The markdown content is modelled; where it is written is not.
- `run_analysis`, `main`, the API-key check (main.py:300-332) and all `print` logging. test_setup.py only checks the environment.
- Text.Lower: ASCII letters only. Python's Unicode `lower()` also folds characters such as the Kelvin sign into `k`.
- Services.Show: a list shown by an f-string is rendered as `['a', 'b']` without Python's escaping rules for quotes and backslashes inside items.
- JSON values other than strings and lists of strings (numbers, booleans, `null`, nested objects) are not modelled.
- Classifier.ContentType: requires a string `content_type` (`TypeIsText`). Python raises on `.lower()` otherwise. The parser parameter must never produce such an object (`ParserKeepsTypeText`), and a parse result that is not a JSON object is not modelled either; both are crash paths of the source.

Two behaviours of the code worth naming: `process_documents` returns `{}`
on an empty page list, which `ProcessDocuments` gives as `None`; and
`urgency_level` is copied as whatever value the classification holds, so it
is a `Value` and not an enumeration.

=== FILE: base.dfy ===
/** Small generic vocabulary shared by the other modules: an optional value,
    duplicate-free sequences and "first occurrence" positions. */
module Base {

  /** An optional value, for `dict.get` lookups and a JSON parse that may fail. */
  datatype Option<+T> = None | Some(value: T) {

    /** The value carried by Some, or `default` for None. */
    function GetOr(default: T): T {
      match this
      case Some(v) => v
      case None => default
    }
  }

  /** No element occurs twice. */
  predicate Distinct<T(==)>(xs: seq<T>) {
    forall i, j :: 0 <= i < j < |xs| ==> xs[i] != xs[j]
  }

  /** Position of the first occurrence of `x` in `xs`, or `|xs|` when absent. */
  function FirstIndex<T(==)>(xs: seq<T>, x: T): (k: nat)
    ensures k <= |xs|
    ensures k < |xs| <==> x in xs
    ensures k < |xs| ==> xs[k] == x
    ensures forall i :: 0 <= i < k ==> xs[i] != x
  {
    if |xs| == 0 then 0
    else if xs[0] == x then 0
    else 1 + FirstIndex(xs[1..], x)
  }

  /** Appending an element never moves the first occurrence of something
      already present, and places the first occurrence of a new element last. */
  lemma {:induction false} FirstIndexSnoc<T>(xs: seq<T>, y: T, x: T)
    ensures x in xs ==> FirstIndex(xs + [y], x) == FirstIndex(xs, x)
    ensures x !in xs && x == y ==> FirstIndex(xs + [y], x) == |xs|
  {
    var k := FirstIndex(xs + [y], x);
    if x in xs {
      var k0 := FirstIndex(xs, x);
      assert (xs + [y])[k0] == x;
      assert k <= k0;
      assert xs[k] == (xs + [y])[k];
    } else if x == y {
      assert forall i :: 0 <= i < |xs| ==> (xs + [y])[i] == xs[i];
    }
  }

  /** `ys` lists every element of `xs` exactly once, ordered by where each
      element first occurs in `xs`: the key order of a Python dict filled
      by walking `xs`. */
  ghost predicate FirstSeenOrder<T(!new)>(xs: seq<T>, ys: seq<T>) {
    && Distinct(ys)
    && (forall x :: x in ys <==> x in xs)
    && (forall i, j :: 0 <= i < j < |ys| ==> FirstIndex(xs, ys[i]) < FirstIndex(xs, ys[j]))
  }

  /** Walking one more element: a new element is appended to the first-seen
      order, an element already seen leaves it unchanged. */
  lemma FirstSeenSnoc<T(!new)>(xs: seq<T>, ys: seq<T>, x: T)
    requires FirstSeenOrder(xs, ys)
    ensures FirstSeenOrder(xs + [x], if x in ys then ys else ys + [x])
  {
    forall y | y in ys
      ensures FirstIndex(xs + [x], y) == FirstIndex(xs, y)
    {
      FirstIndexSnoc(xs, x, y);
    }
    if x in ys {
      forall i, j | 0 <= i < j < |ys|
        ensures FirstIndex(xs + [x], ys[i]) < FirstIndex(xs + [x], ys[j])
      {
        assert ys[i] in ys && ys[j] in ys;
      }
    } else {
      var ys' := ys + [x];
      FirstIndexSnoc(xs, x, x);
      forall i, j | 0 <= i < j < |ys'|
        ensures FirstIndex(xs + [x], ys'[i]) < FirstIndex(xs + [x], ys'[j])
      {
        assert ys'[i] == ys[i] && ys[i] in ys;
        if j < |ys| {
          assert ys'[j] == ys[j] && ys[j] in ys;
        }
      }
    }
  }

  /** The first-seen order of a sequence is unique: two sequences that both
      satisfy it are equal. */
  lemma {:induction false} FirstSeenOrderUnique<T(!new)>(xs: seq<T>, ys: seq<T>, zs: seq<T>)
    requires FirstSeenOrder(xs, ys) && FirstSeenOrder(xs, zs)
    ensures ys == zs
    decreases |ys|
  {
    if |ys| == 0 {
      // zs has no element either, since both list the elements of xs
      assert forall z :: z !in zs;
      NoElementsIsEmpty(zs);
    } else {
      SameLast(xs, ys, zs);
      var a := ys[|ys| - 1];
      var ys', zs' := ys[..|ys| - 1], zs[..|zs| - 1];
      DropLast(xs, ys);
      DropLast(xs, zs);
      FirstSeenOrderUnique(RemoveAll(xs, a), ys', zs');
      assert ys == ys' + [a];
      assert zs == zs' + [a];
    }
  }

  /** Two first-seen orders of the same sequence end with the same element:
      the one whose first occurrence is latest. */
  lemma SameLast<T(!new)>(xs: seq<T>, ys: seq<T>, zs: seq<T>)
    requires FirstSeenOrder(xs, ys) && FirstSeenOrder(xs, zs) && |ys| > 0
    ensures |zs| > 0 && ys[|ys| - 1] == zs[|zs| - 1]
  {
    assert |zs| > 0 by { assert ys[0] in xs; assert ys[0] in zs; }
    var a, b := ys[|ys| - 1], zs[|zs| - 1];
    LastIsLatest(xs, ys);
    LastIsLatest(xs, zs);
    assert b in ys by { assert b in xs; }
    assert a in zs by { assert a in xs; }
    FirstIndexInjective(xs, a, b);
  }

  lemma NoElementsIsEmpty<T>(zs: seq<T>)
    requires forall z :: z !in zs
    ensures zs == []
  {
    if |zs| > 0 {
      HeadIsElement(zs);
      assert false;
    }
  }

  lemma HeadIsElement<T>(zs: seq<T>)
    requires |zs| > 0
    ensures zs[0] in zs
  {
  }

  /** Every element other than the last has an earlier first occurrence. */
  lemma LastIsLatest<T(!new)>(xs: seq<T>, ys: seq<T>)
    requires FirstSeenOrder(xs, ys) && |ys| > 0
    ensures forall y :: y in ys ==> FirstIndex(xs, y) <= FirstIndex(xs, ys[|ys| - 1])
  {
    forall y | y in ys
      ensures FirstIndex(xs, y) <= FirstIndex(xs, ys[|ys| - 1])
    {
      var i :| 0 <= i < |ys| && ys[i] == y;
      if i < |ys| - 1 {
        assert FirstIndex(xs, ys[i]) < FirstIndex(xs, ys[|ys| - 1]);
      }
    }
  }

  /** Two elements present in `xs` with the same first position are equal. */
  lemma FirstIndexInjective<T>(xs: seq<T>, a: T, b: T)
    requires a in xs && b in xs && FirstIndex(xs, a) == FirstIndex(xs, b)
    ensures a == b
  {
  }

  /** `xs` with every occurrence of `a` removed. */
  function RemoveAll<T(==,!new)>(xs: seq<T>, a: T): (r: seq<T>)
    ensures forall x :: x in r <==> x in xs && x != a
  {
    if |xs| == 0 then []
    else (if xs[0] == a then [] else [xs[0]]) + RemoveAll(xs[1..], a)
  }

  /** Removing an element keeps the relative order of first occurrences of
      all the others. */
  lemma {:induction false} RemoveAllKeepsOrder<T(!new)>(xs: seq<T>, a: T, x: T, y: T)
    requires x in xs && y in xs && x != a && y != a
    ensures FirstIndex(xs, x) < FirstIndex(xs, y) <==>
            FirstIndex(RemoveAll(xs, a), x) < FirstIndex(RemoveAll(xs, a), y)
    decreases |xs|
  {
    var r, r' := RemoveAll(xs, a), RemoveAll(xs[1..], a);
    if xs[0] == x || xs[0] == y {
      assert r[0] == xs[0];
    } else {
      assert x in xs[1..] && y in xs[1..];
      RemoveAllKeepsOrder(xs[1..], a, x, y);
      assert FirstIndex(xs, x) == 1 + FirstIndex(xs[1..], x);
      assert FirstIndex(xs, y) == 1 + FirstIndex(xs[1..], y);
      if xs[0] == a {
        assert r == r';
      } else {
        assert r == [xs[0]] + r';
        assert r[1..] == r';
        assert FirstIndex(r, x) == 1 + FirstIndex(r', x);
        assert FirstIndex(r, y) == 1 + FirstIndex(r', y);
      }
    }
  }

  /** Dropping the latest element of a first-seen order leaves the first-seen
      order of the sequence without that element. */
  lemma DropLast<T(!new)>(xs: seq<T>, ys: seq<T>)
    requires FirstSeenOrder(xs, ys) && |ys| > 0
    ensures FirstSeenOrder(RemoveAll(xs, ys[|ys| - 1]), ys[..|ys| - 1])
  {
    var a := ys[|ys| - 1];
    var ys' := ys[..|ys| - 1];
    var xs' := RemoveAll(xs, a);
    forall x
      ensures x in ys' <==> x in xs'
    {
      if x in ys' {
        var i :| 0 <= i < |ys'| && ys'[i] == x;
        assert ys[i] == x;
      }
      if x in xs' {
        assert x in ys;
        var i :| 0 <= i < |ys| && ys[i] == x;
        assert i != |ys| - 1;
        assert ys'[i] == x;
      }
    }
    forall i, j | 0 <= i < j < |ys'|
      ensures FirstIndex(xs', ys'[i]) < FirstIndex(xs', ys'[j])
    {
      assert ys'[i] == ys[i] && ys'[j] == ys[j];
      assert ys[i] != a && ys[j] != a;
      RemoveAllKeepsOrder(xs, a, ys[i], ys[j]);
    }
  }
}

=== FILE: classifier.dfy ===
/** `PDFAnalyzer.categorize_content`: one classification request per file,
    degraded to an error-shaped object instead of raising. */
module Classifier {
  import opened Base
  import opened Text
  import opened Services

  /** Characters of a file's text that reach the classification prompt. */
  const ClassifyLimit: nat := 3000

  /** The content type used when the classification has none. */
  const DefaultContentType: string := "general"

  /** The classification prompt carries exactly the first 3000 characters
      of the text, or all of it when the text is shorter. */
  function ClassifyRequest(text: string): (p: Prompt)
    ensures p.ClassifyPrompt?
    ensures |p.text| == if |text| <= ClassifyLimit then |text| else ClassifyLimit
    ensures p.text <= text
  {
    ClassifyPrompt(Prefix(text, ClassifyLimit))
  }

  /** `categorize_content(text)`: exactly one request; a failed request
      yields `{"error": message}`, an unparsable reply yields
      `{"raw_analysis": reply}`, a parsed reply is returned as parsed. */
  function Categorize(llm: Prompt -> Reply, parse: string -> Option<Object>, text: string): (c: Object)
    ensures llm(ClassifyRequest(text)).CallFailed? ==>
              c == map["error" := Str(llm(ClassifyRequest(text)).message)]
    ensures llm(ClassifyRequest(text)).Completed? && parse(llm(ClassifyRequest(text)).text).None? ==>
              c == map["raw_analysis" := Str(llm(ClassifyRequest(text)).text)]
    ensures llm(ClassifyRequest(text)).Completed? && parse(llm(ClassifyRequest(text)).text).Some? ==>
              c == parse(llm(ClassifyRequest(text)).text).value
    ensures ParserKeepsTypeText(parse) ==> TypeIsText(c)
  {
    match llm(ClassifyRequest(text))
    case CallFailed(message) => map["error" := Str(message)]
    case Completed(reply) =>
      match parse(reply)
      case None => map["raw_analysis" := Str(reply)]
      case Some(o) => o
  }

  /** Text beyond the first 3000 characters never influences the
      classification. */
  lemma {:induction false} CategorizeIgnoresTail(llm: Prompt -> Reply, parse: string -> Option<Object>, text: string, tail: string)
    requires |text| >= ClassifyLimit
    ensures Categorize(llm, parse, text + tail) == Categorize(llm, parse, text)
  {
    PrefixOfExtension(text, tail, ClassifyLimit);
  }

  /** The only shape of classification the analyzer can consume without
      raising: `content_type`, when present, is a string (Python calls
      `.lower()` on it). */
  predicate TypeIsText(c: Object) {
    "content_type" in c ==> c["content_type"].Str?
  }

  /** The parser only produces objects whose `content_type` is a string. */
  ghost predicate ParserKeepsTypeText(parse: string -> Option<Object>) {
    forall t :: parse(t).Some? ==> TypeIsText(parse(t).value)
  }

  /** `categorization.get('content_type', 'general')` */
  function ContentType(c: Object): (t: string)
    requires TypeIsText(c)
    ensures "content_type" !in c ==> t == DefaultContentType
    ensures "content_type" in c ==> Str(t) == c["content_type"]
  {
    if "content_type" in c then c["content_type"].s else DefaultContentType
  }

  /** A degraded classification (failed request or unparsable reply) has
      the default content type. */
  lemma {:induction false} DegradedIsGeneral(llm: Prompt -> Reply, parse: string -> Option<Object>, text: string)
    requires llm(ClassifyRequest(text)).CallFailed?
          || parse(llm(ClassifyRequest(text)).text).None?
    ensures ContentType(Categorize(llm, parse, text)) == DefaultContentType
  {
    var c := Categorize(llm, parse, text);
    assert "content_type" !in c;
  }
}

=== FILE: orchestrator.dfy ===
/** `PDFAnalyzer.process_documents`: group the loaded pages by source file in
    first-seen order, classify and summarize each file once, and assemble the
    analysis report with its task and story views. */
module Orchestrator {
  import opened Base
  import opened Text
  import opened Services
  import opened PyDict
  import opened Classifier
  import opened Summarizer

  /** One loaded PDF page: its text and the `source_file` metadata, which a
      page may lack. */
  datatype Page = Page(content: string, sourceFile: Option<string>)

  /** Separator between the pages of one file. */
  const PageSeparator: string := "\n\n"

  /** Source name for a page without `source_file` metadata. */
  const UnknownSource: string := "unknown"

  /** `doc.metadata.get('source_file', 'unknown')` */
  function SourceOf(p: Page): string {
    p.sourceFile.GetOr(UnknownSource)
  }

  /** The source of every page, in load order. */
  function Sources(pages: seq<Page>): (s: seq<string>)
    ensures |s| == |pages|
    ensures forall i :: 0 <= i < |pages| ==> s[i] == SourceOf(pages[i])
  {
    seq(|pages|, i requires 0 <= i < |pages| => SourceOf(pages[i]))
  }

  /** The grouping loop: `files_content[source].append(page_content)` for
      each page in load order, creating the list on a source's first page. */
  function Group(pages: seq<Page>): (g: Dict<string, seq<string>>)
    ensures Valid(g)
    decreases |pages|
  {
    if |pages| == 0 then Empty()
    else
      var g0 := Group(pages[..|pages| - 1]);
      var p := pages[|pages| - 1];
      var source := SourceOf(p);
      var current := if source in g0.entries then g0.entries[source] else [];
      Put(g0, source, current + [p.content])
  }

  /** The contents of the pages that come from `source`, in load order. */
  function PagesOf(pages: seq<Page>, source: string): seq<string>
    decreases |pages|
  {
    if |pages| == 0 then []
    else
      var p := pages[|pages| - 1];
      PagesOf(pages[..|pages| - 1], source) + (if SourceOf(p) == source then [p.content] else [])
  }

  /** The text handed to classification and summary for one file: its pages
      joined by a blank line. */
  function FullText(pages: seq<Page>, source: string): string {
    Join(PageSeparator, PagesOf(pages, source))
  }

  /** The sources of one more page: the earlier sources, then its own. */
  lemma SourcesSnoc(pages: seq<Page>)
    requires |pages| > 0
    ensures Sources(pages) == Sources(pages[..|pages| - 1]) + [SourceOf(pages[|pages| - 1])]
  {
    var ps := pages[..|pages| - 1];
    var ys := Sources(ps) + [SourceOf(pages[|pages| - 1])];
    forall i | 0 <= i < |pages|
      ensures Sources(pages)[i] == ys[i]
    {
      if i < |ps| {
        assert ps[i] == pages[i];
      }
    }
  }

  /** A page from a new source appends that source to the files; a page
      from a known source leaves the files as they are. */
  lemma GroupKeysSnoc(pages: seq<Page>)
    requires |pages| > 0
    ensures var ks := Group(pages[..|pages| - 1]).keys;
            var x := SourceOf(pages[|pages| - 1]);
            Group(pages).keys == if x in ks then ks else ks + [x]
  {
    var g := Group(pages[..|pages| - 1]);
    assert SourceOf(pages[|pages| - 1]) in g.keys <==> SourceOf(pages[|pages| - 1]) in g.entries;
  }

  /** The files are the distinct page sources in the order they are first
      met. */
  lemma {:induction false} GroupOrder(pages: seq<Page>)
    ensures FirstSeenOrder(Sources(pages), Group(pages).keys)
    decreases |pages|
  {
    if |pages| > 0 {
      var ps := pages[..|pages| - 1];
      var x := SourceOf(pages[|pages| - 1]);
      var xs := Sources(ps);
      var ks := Group(ps).keys;
      GroupOrder(ps);
      FirstSeenSnoc(xs, ks, x);
      GroupKeysSnoc(pages);
      SourcesSnoc(pages);
    }
  }

  /** Each file's page list holds exactly that file's pages, in load order. */
  lemma {:induction false} GroupContents(pages: seq<Page>)
    ensures forall f :: f in Group(pages).entries ==> Group(pages).entries[f] == PagesOf(pages, f)
    ensures forall f :: f !in Group(pages).entries ==> PagesOf(pages, f) == []
    decreases |pages|
  {
    if |pages| > 0 {
      GroupContents(pages[..|pages| - 1]);
    }
  }

  /** `results["summaries"][filename]` */
  datatype SummaryInfo = SummaryInfo(contentType: string, summary: string)

  /** One entry of `results["task_lists"]`. */
  datatype TaskEntry = TaskEntry(file: string, tasks: Value, urgency: Value, summary: string)

  /** One entry of `results["stories"]`. */
  datatype StoryEntry = StoryEntry(file: string, summary: string, characters: Value, themes: Value)

  /** The result dictionary of `process_documents`. */
  datatype Report = Report(
    processingDate: string,
    totalDocuments: nat,
    filesProcessed: seq<string>,
    categorized: Dict<string, Object>,
    summaries: Dict<string, SummaryInfo>,
    taskLists: seq<TaskEntry>,
    stories: seq<StoryEntry>)

  /** The task entry of a file: action items default to `[]`, urgency to
      `"none"`. */
  function TaskEntryOf(file: string, c: Object, summary: string): TaskEntry {
    TaskEntry(file, Lookup(c, "action_items", Strs([])), Lookup(c, "urgency_level", Str("none")), summary)
  }

  /** The story entry of a file: characters are the key entities and themes
      the main topics, both defaulting to `[]`. */
  function StoryEntryOf(file: string, c: Object, summary: string): StoryEntry {
    StoryEntry(file, summary, Lookup(c, "key_entities", Strs([])), Lookup(c, "main_topics", Strs([])))
  }

  /** A task entry copies the classification's action items and urgency
      when present and otherwise shows no items and urgency "none"; it
      names the file and carries its summary. */
  lemma TaskEntryDefaults(file: string, c: Object, summary: string)
    ensures TaskEntryOf(file, c, summary).file == file && TaskEntryOf(file, c, summary).summary == summary
    ensures TaskEntryOf(file, c, summary).tasks == if "action_items" in c then c["action_items"] else Strs([])
    ensures TaskEntryOf(file, c, summary).urgency == if "urgency_level" in c then c["urgency_level"] else Str("none")
    ensures "action_items" !in c ==> !Truthy(TaskEntryOf(file, c, summary).tasks)
  {
  }

  /** A story entry's characters are the classification's key entities and
      its themes the main topics, each empty when absent. */
  lemma StoryEntryDefaults(file: string, c: Object, summary: string)
    ensures StoryEntryOf(file, c, summary).file == file && StoryEntryOf(file, c, summary).summary == summary
    ensures StoryEntryOf(file, c, summary).characters == if "key_entities" in c then c["key_entities"] else Strs([])
    ensures StoryEntryOf(file, c, summary).themes == if "main_topics" in c then c["main_topics"] else Strs([])
    ensures "key_entities" !in c ==> !Truthy(StoryEntryOf(file, c, summary).characters)
    ensures "main_topics" !in c ==> !Truthy(StoryEntryOf(file, c, summary).themes)
  {
  }

  /** The report before any file is processed. */
  function Initial(now: string, total: nat): Report {
    Report(now, total, [], Empty(), Empty(), [], [])
  }

  /** Storing one file's results (the loop body after the two requests):
      append the file, record its classification and summary, and route it
      to the task list or the story list by its content type. */
  function Record(r: Report, name: string, c: Object, summary: string): (r': Report)
    requires Valid(r.categorized) && Valid(r.summaries) && TypeIsText(c)
    ensures Valid(r'.categorized) && Valid(r'.summaries)
    ensures r'.filesProcessed == r.filesProcessed + [name]
    ensures r'.processingDate == r.processingDate && r'.totalDocuments == r.totalDocuments
  {
    var contentType := ContentType(c);
    var r1 := r.(filesProcessed := r.filesProcessed + [name],
                 categorized := Put(r.categorized, name, c),
                 summaries := Put(r.summaries, name, SummaryInfo(contentType, summary)));
    if IsTaskType(contentType) then
      r1.(taskLists := r1.taskLists + [TaskEntryOf(name, c, summary)])
    else if IsStoryType(contentType) then
      r1.(stories := r1.stories + [StoryEntryOf(name, c, summary)])
    else
      r1
  }

  /** One iteration of the per-file loop: join the pages, classify, take the
      content type, summarize, store. */
  function Step(r: Report, name: string, pageTexts: seq<string>,
                llm: Prompt -> Reply, parse: string -> Option<Object>): (r': Report)
    requires Valid(r.categorized) && Valid(r.summaries) && ParserKeepsTypeText(parse)
    ensures Valid(r'.categorized) && Valid(r'.summaries)
    ensures r'.filesProcessed == r.filesProcessed + [name]
    ensures r'.processingDate == r.processingDate && r'.totalDocuments == r.totalDocuments
  {
    var text := Join(PageSeparator, pageTexts);
    var c := Categorize(llm, parse, text);
    Record(r, name, c, GenerateSummary(llm, text, ContentType(c)))
  }

  /** The report after the first `n` files of `groups` have been processed. */
  function ProcessFiles(now: string, total: nat, groups: Dict<string, seq<string>>, n: nat,
                        llm: Prompt -> Reply, parse: string -> Option<Object>): (r: Report)
    requires Valid(groups) && n <= |groups.keys| && ParserKeepsTypeText(parse)
    ensures Valid(r.categorized) && Valid(r.summaries)
    ensures r.filesProcessed == groups.keys[..n]
    ensures r.processingDate == now && r.totalDocuments == total
  {
    if n == 0 then Initial(now, total)
    else
      var name := groups.keys[n - 1];
      assert groups.keys[..n] == groups.keys[..n - 1] + [name];
      Step(ProcessFiles(now, total, groups, n - 1, llm, parse), name, groups.entries[name], llm, parse)
  }

  /** `process_documents()` on the loaded pages, with the clock reading
      `now`: no report (`{}`) without pages, otherwise the report over all
      files. */
  function ProcessDocuments(pages: seq<Page>, now: string,
                            llm: Prompt -> Reply, parse: string -> Option<Object>): (r: Option<Report>)
    requires ParserKeepsTypeText(parse)
    ensures r.None? <==> |pages| == 0
    ensures r.Some? ==> r.value.totalDocuments == |pages| && r.value.processingDate == now
  {
    if |pages| == 0 then None
    else
      var groups := Group(pages);
      Some(ProcessFiles(now, |pages|, groups, |groups.keys|, llm, parse))
  }

  // ---------------------------------------------------------------------
  // The report's invariant

  /** The files of the task entries, in list order. */
  function TaskFiles(r: Report): (fs: seq<string>)
    ensures |fs| == |r.taskLists|
    ensures forall i :: 0 <= i < |fs| ==> fs[i] == r.taskLists[i].file
  {
    seq(|r.taskLists|, i requires 0 <= i < |r.taskLists| => r.taskLists[i].file)
  }

  /** The files of the story entries, in list order. */
  function StoryFiles(r: Report): (fs: seq<string>)
    ensures |fs| == |r.stories|
    ensures forall i :: 0 <= i < |fs| ==> fs[i] == r.stories[i].file
  {
    seq(|r.stories|, i requires 0 <= i < |r.stories| => r.stories[i].file)
  }

  /** `files` picks elements of `order` without repetition, in `order`'s
      order. */
  ghost predicate InOrderOf(order: seq<string>, files: seq<string>) {
    && (forall i :: 0 <= i < |files| ==> files[i] in order)
    && (forall i, j :: 0 <= i < j < |files| ==> FirstIndex(order, files[i]) < FirstIndex(order, files[j]))
  }

  /** Both per-file maps are keyed by exactly the processed files, in the
      same order. */
  ghost predicate KeysAgree(r: Report) {
    && Valid(r.categorized) && Valid(r.summaries)
    && r.categorized.keys == r.filesProcessed
    && r.summaries.keys == r.filesProcessed
  }

  /** Every summary records the classification's content type. */
  ghost predicate TypesRecordedIn(cat: map<string, Object>, sums: map<string, SummaryInfo>) {
    forall f :: f in sums ==>
      && f in cat
      && TypeIsText(cat[f])
      && sums[f].contentType == ContentType(cat[f])
  }

  ghost predicate TypesRecorded(r: Report) {
    TypesRecordedIn(r.categorized.entries, r.summaries.entries)
  }

  /** A recorded file is among `taskFiles` exactly when its content type is
      task-like, and among `storyFiles` exactly when it is story-like. */
  ghost predicate RoutedBy(taskFiles: seq<string>, storyFiles: seq<string>, sums: map<string, SummaryInfo>) {
    forall f :: f in sums ==>
      && (f in taskFiles <==> IsTaskType(sums[f].contentType))
      && (f in storyFiles <==> IsStoryType(sums[f].contentType))
  }

  /** A processed file has a task entry exactly when its content type is
      task-like, and a story entry exactly when it is story-like. */
  ghost predicate Routed(r: Report) {
    RoutedBy(TaskFiles(r), StoryFiles(r), r.summaries.entries)
  }

  /** Recording a classification with a string content type, together with
      that type, keeps every summary's type the classification's. */
  lemma TypesRecordedUpdate(cat: map<string, Object>, sums: map<string, SummaryInfo>,
                            name: string, c: Object, summary: string)
    requires TypesRecordedIn(cat, sums) && TypeIsText(c)
    ensures TypesRecordedIn(cat[name := c], sums[name := SummaryInfo(ContentType(c), summary)])
  {
  }

  /** Recording a new file and appending it to the task files iff its type
      is task-like, and to the story files iff story-like, keeps the routing
      exact. */
  lemma RoutedUpdate(taskFiles: seq<string>, storyFiles: seq<string>, sums: map<string, SummaryInfo>,
                     name: string, info: SummaryInfo)
    requires RoutedBy(taskFiles, storyFiles, sums)
    requires name !in taskFiles && name !in storyFiles
    ensures RoutedBy(if IsTaskType(info.contentType) then taskFiles + [name] else taskFiles,
                     if IsStoryType(info.contentType) then storyFiles + [name] else storyFiles,
                     sums[name := info])
  {
  }

  /** Every task entry is built from its file's classification and
      summary, looked up in the two maps. */
  ghost predicate TasksBuiltFrom(tasks: seq<TaskEntry>, cat: map<string, Object>, sums: map<string, SummaryInfo>) {
    forall i :: 0 <= i < |tasks| && tasks[i].file in sums ==>
      && tasks[i].file in cat
      && tasks[i] == TaskEntryOf(tasks[i].file, cat[tasks[i].file], sums[tasks[i].file].summary)
  }

  /** Every story entry is built from its file's classification and
      summary, looked up in the two maps. */
  ghost predicate StoriesBuiltFrom(stories: seq<StoryEntry>, cat: map<string, Object>, sums: map<string, SummaryInfo>) {
    forall i :: 0 <= i < |stories| && stories[i].file in sums ==>
      && stories[i].file in cat
      && stories[i] == StoryEntryOf(stories[i].file, cat[stories[i].file], sums[stories[i].file].summary)
  }

  ghost predicate EntriesBuilt(r: Report) {
    && TasksBuiltFrom(r.taskLists, r.categorized.entries, r.summaries.entries)
    && StoriesBuiltFrom(r.stories, r.categorized.entries, r.summaries.entries)
  }

  /** Recording a file that has no task entry yet, and appending its entry
      when it gets one, keeps the task entries built from the maps. */
  lemma TasksBuiltUpdate(tasks: seq<TaskEntry>, cat: map<string, Object>, sums: map<string, SummaryInfo>,
                         name: string, c: Object, summary: string, ct: string, add: bool)
    requires TasksBuiltFrom(tasks, cat, sums)
    requires forall i :: 0 <= i < |tasks| ==> tasks[i].file != name
    ensures TasksBuiltFrom(if add then tasks + [TaskEntryOf(name, c, summary)] else tasks,
                           cat[name := c], sums[name := SummaryInfo(ct, summary)])
  {
  }

  /** Recording a file that has no story entry yet, and appending its entry
      when it gets one, keeps the story entries built from the maps. */
  lemma StoriesBuiltUpdate(stories: seq<StoryEntry>, cat: map<string, Object>, sums: map<string, SummaryInfo>,
                           name: string, c: Object, summary: string, ct: string, add: bool)
    requires StoriesBuiltFrom(stories, cat, sums)
    requires forall i :: 0 <= i < |stories| ==> stories[i].file != name
    ensures StoriesBuiltFrom(if add then stories + [StoryEntryOf(name, c, summary)] else stories,
                             cat[name := c], sums[name := SummaryInfo(ct, summary)])
  {
  }

  /** The invariant of an analysis report. */
  ghost predicate Consistent(r: Report) {
    && KeysAgree(r)
    && InOrderOf(r.filesProcessed, TaskFiles(r))
    && InOrderOf(r.filesProcessed, StoryFiles(r))
    && TypesRecorded(r)
    && Routed(r)
    && EntriesBuilt(r)
  }

  /** The freshly initialised result dictionary carries the clock reading
      and the page count, has no file yet, and satisfies the invariant. */
  lemma InitialConsistent(now: string, total: nat)
    ensures Initial(now, total).processingDate == now && Initial(now, total).totalDocuments == total
    ensures Initial(now, total).filesProcessed == [] && Initial(now, total).summaries.entries == map[]
    ensures Initial(now, total).taskLists == [] && Initial(now, total).stories == []
    ensures Consistent(Initial(now, total))
  {
  }

  /** Appending a new name to the processed files keeps earlier entries
      in order and places the new one after all of them. */
  lemma InOrderSnoc(order: seq<string>, files: seq<string>, name: string)
    requires InOrderOf(order, files) && name !in order
    ensures InOrderOf(order + [name], files)
    ensures InOrderOf(order + [name], files + [name])
  {
    var order' := order + [name];
    forall i | 0 <= i < |files|
      ensures FirstIndex(order', files[i]) == FirstIndex(order, files[i])
    {
      FirstIndexSnoc(order, name, files[i]);
    }
    FirstIndexSnoc(order, name, name);
    var files' := files + [name];
    forall i, j | 0 <= i < j < |files'|
      ensures FirstIndex(order', files'[i]) < FirstIndex(order', files'[j])
    {
      if j == |files| {
        assert files'[i] == files[i];
      } else {
        assert files'[i] == files[i] && files'[j] == files[j];
      }
    }
  }

  /** Processing one new file keeps the report consistent. */
  lemma StepConsistent(r: Report, name: string, pageTexts: seq<string>,
                       llm: Prompt -> Reply, parse: string -> Option<Object>)
    requires Consistent(r) && name !in r.filesProcessed && ParserKeepsTypeText(parse)
    ensures Consistent(Step(r, name, pageTexts, llm, parse))
  {
    var text := Join(PageSeparator, pageTexts);
    var c := Categorize(llm, parse, text);
    RecordConsistent(r, name, c, GenerateSummary(llm, text, ContentType(c)));
  }

  /** Storing a new file's results keeps the report consistent. */
  lemma RecordConsistent(r: Report, name: string, c: Object, summary: string)
    requires Consistent(r) && name !in r.filesProcessed && TypeIsText(c)
    ensures Consistent(Record(r, name, c, summary))
  {
    RecordKeys(r, name, c, summary);
    RecordOrder(r, name, c, summary);
    RecordTypes(r, name, c, summary);
    RecordRouted(r, name, c, summary);
    RecordEntries(r, name, c, summary);
  }

  /** Storing a new file keeps both maps keyed by exactly the processed
      files, in processing order. */
  lemma RecordKeys(r: Report, name: string, c: Object, summary: string)
    requires KeysAgree(r) && name !in r.filesProcessed && TypeIsText(c)
    ensures KeysAgree(Record(r, name, c, summary))
  {
  }

  /** The entry lists of a step: each grows by the new file or not at all,
      and never both. */
  lemma RecordLists(r: Report, name: string, c: Object, summary: string)
    requires Valid(r.categorized) && Valid(r.summaries) && TypeIsText(c)
    ensures var r' := Record(r, name, c, summary);
            var ct := r'.summaries.entries[name].contentType;
            && (TaskFiles(r') == if IsTaskType(ct) then TaskFiles(r) + [name] else TaskFiles(r))
            && (StoryFiles(r') == if IsStoryType(ct) then StoryFiles(r) + [name] else StoryFiles(r))
            && (r'.taskLists == if IsTaskType(ct) then r.taskLists + [TaskEntryOf(name, r'.categorized.entries[name], r'.summaries.entries[name].summary)] else r.taskLists)
            && (r'.stories == if IsStoryType(ct) then r.stories + [StoryEntryOf(name, r'.categorized.entries[name], r'.summaries.entries[name].summary)] else r.stories)
  {
    VocabulariesDisjoint(ContentType(c));
  }

  lemma RecordOrder(r: Report, name: string, c: Object, summary: string)
    requires KeysAgree(r) && name !in r.filesProcessed && TypeIsText(c)
    requires InOrderOf(r.filesProcessed, TaskFiles(r)) && InOrderOf(r.filesProcessed, StoryFiles(r))
    ensures var r' := Record(r, name, c, summary);
            InOrderOf(r'.filesProcessed, TaskFiles(r')) && InOrderOf(r'.filesProcessed, StoryFiles(r'))
  {
    RecordLists(r, name, c, summary);
    InOrderSnoc(r.filesProcessed, TaskFiles(r), name);
    InOrderSnoc(r.filesProcessed, StoryFiles(r), name);
  }

  lemma RecordTypes(r: Report, name: string, c: Object, summary: string)
    requires Valid(r.categorized) && Valid(r.summaries) && TypesRecorded(r) && TypeIsText(c)
    ensures TypesRecorded(Record(r, name, c, summary))
  {
    RecordMaps(r, name, c, summary);
    TypesRecordedUpdate(r.categorized.entries, r.summaries.entries, name, c, summary);
  }

  lemma RecordRouted(r: Report, name: string, c: Object, summary: string)
    requires Valid(r.categorized) && Valid(r.summaries) && Routed(r) && name !in r.filesProcessed && TypeIsText(c)
    requires InOrderOf(r.filesProcessed, TaskFiles(r)) && InOrderOf(r.filesProcessed, StoryFiles(r))
    ensures Routed(Record(r, name, c, summary))
  {
    RecordLists(r, name, c, summary);
    RecordMaps(r, name, c, summary);
    NoEntryYet(r, name);
    RoutedUpdate(TaskFiles(r), StoryFiles(r), r.summaries.entries, name, SummaryInfo(ContentType(c), summary));
  }

  /** Storing a file updates the two maps at its name. */
  lemma RecordMaps(r: Report, name: string, c: Object, summary: string)
    requires Valid(r.categorized) && Valid(r.summaries) && TypeIsText(c)
    ensures var r' := Record(r, name, c, summary);
            && r'.categorized.entries == r.categorized.entries[name := c]
            && r'.summaries.entries == r.summaries.entries[name := SummaryInfo(ContentType(c), summary)]
  {
  }

  /** A file not yet processed has neither a task entry nor a story entry. */
  lemma NoEntryYet(r: Report, name: string)
    requires name !in r.filesProcessed
    requires InOrderOf(r.filesProcessed, TaskFiles(r)) && InOrderOf(r.filesProcessed, StoryFiles(r))
    ensures forall i :: 0 <= i < |r.taskLists| ==> r.taskLists[i].file != name
    ensures forall i :: 0 <= i < |r.stories| ==> r.stories[i].file != name
    ensures name !in TaskFiles(r) && name !in StoryFiles(r)
  {
    forall i | 0 <= i < |r.taskLists| ensures r.taskLists[i].file != name {
      assert TaskFiles(r)[i] in r.filesProcessed;
    }
    forall i | 0 <= i < |r.stories| ensures r.stories[i].file != name {
      assert StoryFiles(r)[i] in r.filesProcessed;
    }
  }

  lemma RecordEntries(r: Report, name: string, c: Object, summary: string)
    requires KeysAgree(r) && EntriesBuilt(r) && name !in r.filesProcessed && TypeIsText(c)
    requires InOrderOf(r.filesProcessed, TaskFiles(r)) && InOrderOf(r.filesProcessed, StoryFiles(r))
    ensures EntriesBuilt(Record(r, name, c, summary))
  {
    var ct := ContentType(c);
    RecordLists(r, name, c, summary);
    RecordMaps(r, name, c, summary);
    NoEntryYet(r, name);
    TasksBuiltUpdate(r.taskLists, r.categorized.entries, r.summaries.entries, name, c, summary, ct, IsTaskType(ct));
    StoriesBuiltUpdate(r.stories, r.categorized.entries, r.summaries.entries, name, c, summary, ct, IsStoryType(ct));
  }

  /** Every recorded classification and summary is the one computed from
      that file's page texts in `texts`. */
  ghost predicate RecordsAnalysis(r: Report, texts: map<string, seq<string>>,
                                  llm: Prompt -> Reply, parse: string -> Option<Object>)
  {
    forall f :: f in r.summaries.entries ==>
      && f in texts && f in r.categorized.entries
      && r.categorized.entries[f] == Categorize(llm, parse, Join(PageSeparator, texts[f]))
      && r.summaries.entries[f].summary ==
           GenerateSummary(llm, Join(PageSeparator, texts[f]), r.summaries.entries[f].contentType)
  }

  /** The per-file loop keeps the report consistent. */
  lemma {:induction false} ProcessFilesConsistent(now: string, total: nat, groups: Dict<string, seq<string>>, n: nat,
                                                  llm: Prompt -> Reply, parse: string -> Option<Object>)
    requires Valid(groups) && n <= |groups.keys| && ParserKeepsTypeText(parse)
    ensures Consistent(ProcessFiles(now, total, groups, n, llm, parse))
  {
    if n == 0 {
      InitialConsistent(now, total);
    } else {
      ProcessFilesConsistent(now, total, groups, n - 1, llm, parse);
      NextFileConsistent(now, total, groups, n, llm, parse);
    }
  }

  /** One more iteration of the loop keeps the report consistent: the next
      grouped file is one not processed yet. */
  lemma NextFileConsistent(now: string, total: nat, groups: Dict<string, seq<string>>, n: nat,
                           llm: Prompt -> Reply, parse: string -> Option<Object>)
    requires Valid(groups) && 0 < n <= |groups.keys| && ParserKeepsTypeText(parse)
    requires Consistent(ProcessFiles(now, total, groups, n - 1, llm, parse))
    ensures Consistent(ProcessFiles(now, total, groups, n, llm, parse))
  {
    var r := ProcessFiles(now, total, groups, n - 1, llm, parse);
    var name := groups.keys[n - 1];
    assert name !in r.filesProcessed by {
      assert r.filesProcessed == groups.keys[..n - 1];
    }
    StepConsistent(r, name, groups.entries[name], llm, parse);
    ProcessFilesUnfold(now, total, groups, n, llm, parse);
  }

  /** The loop after `n` files is one more iteration after `n - 1` files. */
  lemma ProcessFilesUnfold(now: string, total: nat, groups: Dict<string, seq<string>>, n: nat,
                           llm: Prompt -> Reply, parse: string -> Option<Object>)
    requires Valid(groups) && 0 < n <= |groups.keys| && ParserKeepsTypeText(parse)
    ensures ProcessFiles(now, total, groups, n, llm, parse) ==
            Step(ProcessFiles(now, total, groups, n - 1, llm, parse), groups.keys[n - 1],
                 groups.entries[groups.keys[n - 1]], llm, parse)
  {
  }

  /** The per-file loop records, for each processed file, the results
      computed from that file's own pages. */
  lemma {:induction false} ProcessFilesRecords(now: string, total: nat, groups: Dict<string, seq<string>>, n: nat,
                                               llm: Prompt -> Reply, parse: string -> Option<Object>)
    requires Valid(groups) && n <= |groups.keys| && ParserKeepsTypeText(parse)
    ensures RecordsAnalysis(ProcessFiles(now, total, groups, n, llm, parse), groups.entries, llm, parse)
  {
    if n > 0 {
      var name := groups.keys[n - 1];
      ProcessFilesRecords(now, total, groups, n - 1, llm, parse);
      StepRecords(ProcessFiles(now, total, groups, n - 1, llm, parse), name, groups.entries, llm, parse);
    }
  }

  /** An iteration records the new file's results computed from its own
      page texts and leaves the other files' results alone. */
  lemma StepRecords(r: Report, name: string, texts: map<string, seq<string>>,
                    llm: Prompt -> Reply, parse: string -> Option<Object>)
    requires Valid(r.categorized) && Valid(r.summaries) && name in texts && ParserKeepsTypeText(parse)
    requires RecordsAnalysis(r, texts, llm, parse)
    ensures RecordsAnalysis(Step(r, name, texts[name], llm, parse), texts, llm, parse)
  {
    var text := Join(PageSeparator, texts[name]);
    var c := Categorize(llm, parse, text);
    var summary := GenerateSummary(llm, text, ContentType(c));
    assert Step(r, name, texts[name], llm, parse) == Record(r, name, c, summary);
    RecordMaps(r, name, c, summary);
  }

  /** The processed files are the distinct page sources (pages without one
      counting as `"unknown"`), each once, in the order first met. */
  lemma FilesInFirstSeenOrder(pages: seq<Page>, now: string,
                              llm: Prompt -> Reply, parse: string -> Option<Object>)
    requires ParserKeepsTypeText(parse) && |pages| > 0
    ensures FirstSeenOrder(Sources(pages), ProcessDocuments(pages, now, llm, parse).value.filesProcessed)
  {
    var groups := Group(pages);
    assert groups.keys[..|groups.keys|] == groups.keys;
    GroupOrder(pages);
  }

  /** The report satisfies its invariant: both maps keyed by exactly the
      processed files in order, task and story entries in processing order,
      each routed by its content type and built from its file's results. */
  lemma ReportConsistent(pages: seq<Page>, now: string,
                         llm: Prompt -> Reply, parse: string -> Option<Object>)
    requires ParserKeepsTypeText(parse) && |pages| > 0
    ensures Consistent(ProcessDocuments(pages, now, llm, parse).value)
  {
    var groups := Group(pages);
    ProcessFilesConsistent(now, |pages|, groups, |groups.keys|, llm, parse);
  }

  /** Each file's classification and summary are computed from that file's
      full text: its pages in load order joined by a blank line. */
  lemma FileResults(pages: seq<Page>, now: string,
                    llm: Prompt -> Reply, parse: string -> Option<Object>)
    requires ParserKeepsTypeText(parse) && |pages| > 0
    ensures var r := ProcessDocuments(pages, now, llm, parse).value;
            forall f :: f in r.filesProcessed ==>
              && f in r.categorized.entries && f in r.summaries.entries
              && r.categorized.entries[f] == Categorize(llm, parse, FullText(pages, f))
              && r.summaries.entries[f] ==
                   SummaryInfo(ContentType(r.categorized.entries[f]),
                               GenerateSummary(llm, FullText(pages, f), ContentType(r.categorized.entries[f])))
  {
    var groups := Group(pages);
    var r := ProcessFiles(now, |pages|, groups, |groups.keys|, llm, parse);
    ProcessFilesConsistent(now, |pages|, groups, |groups.keys|, llm, parse);
    ProcessFilesRecords(now, |pages|, groups, |groups.keys|, llm, parse);
    GroupContents(pages);
    forall f | f in r.filesProcessed
      ensures f in r.categorized.entries && f in r.summaries.entries
      ensures r.categorized.entries[f] == Categorize(llm, parse, FullText(pages, f))
      ensures r.summaries.entries[f] ==
                SummaryInfo(ContentType(r.categorized.entries[f]),
                            GenerateSummary(llm, FullText(pages, f), ContentType(r.categorized.entries[f])))
    {
      assert f in r.summaries.keys;
      assert groups.entries[f] == PagesOf(pages, f);
    }
  }

  /** No file is both a task list and a story. */
  lemma TasksAndStoriesDisjoint(r: Report)
    requires Consistent(r)
    ensures forall i, j :: 0 <= i < |r.taskLists| && 0 <= j < |r.stories| ==>
              r.taskLists[i].file != r.stories[j].file
  {
    forall i, j | 0 <= i < |r.taskLists| && 0 <= j < |r.stories|
      ensures r.taskLists[i].file != r.stories[j].file
    {
      var f := r.taskLists[i].file;
      assert f in TaskFiles(r);
      assert f in r.summaries.entries;
      VocabulariesDisjoint(r.summaries.entries[f].contentType);
      assert f !in StoryFiles(r);
    }
  }

  /** The orchestrator's routing agrees with the summarizer's template choice:
      a file is a task list exactly when it was summarized with the task
      template, and a story exactly when with the story template. */
  lemma RoutingMatchesTemplate(r: Report)
    requires Consistent(r)
    ensures forall f :: f in r.summaries.entries ==>
              && (f in TaskFiles(r) <==> TemplateFor(r.summaries.entries[f].contentType) == TaskTemplate)
              && (f in StoryFiles(r) <==> TemplateFor(r.summaries.entries[f].contentType) == StoryTemplate)
  {
  }
}

=== FILE: pydict.dfy ===
/** A Python `dict` as the analyzer uses it: a finite map that also remembers
    the order in which its keys were first inserted, which is the order its
    `items()` iterate in. */
module PyDict {
  import opened Base

  datatype Dict<K, V> = Dict(keys: seq<K>, entries: map<K, V>)

  /** The representation invariant: every key listed once, and the listed
      keys are exactly the keys of the map. */
  predicate Valid<K(==), V>(d: Dict<K, V>) {
    && Distinct(d.keys)
    && (forall k :: k in d.entries ==> k in d.keys)
    && (forall i :: 0 <= i < |d.keys| ==> d.keys[i] in d.entries)
  }

  /** `{}` */
  function Empty<K, V>(): (d: Dict<K, V>)
    ensures Valid(d) && |d.keys| == 0 && d.entries == map[]
  {
    Dict([], map[])
  }

  /** `d[k] = v`: the key now maps to `v` and nothing else changes; a key
      already present keeps its place in the iteration order, a new key is
      iterated last. */
  function Put<K(==), V>(d: Dict<K, V>, k: K, v: V): (d': Dict<K, V>)
    requires Valid(d)
    ensures Valid(d')
    ensures d'.entries == d.entries[k := v]
    ensures d'.entries.Keys == d.entries.Keys + {k}
    ensures k in d.entries ==> d'.keys == d.keys
    ensures k !in d.entries ==> d'.keys == d.keys + [k]
  {
    if k in d.entries then Dict(d.keys, d.entries[k := v])
    else Dict(d.keys + [k], d.entries[k := v])
  }
}

=== FILE: report_writer.dfy ===
/** The markdown half of `PDFAnalyzer.save_results`: the report document as
    the sequence of chunks handed to `f.write`, in order. The file's content
    is their concatenation. Timestamps, file names and the JSON dump are I/O
    and are not part of this module. */
module ReportWriter {
  import opened Text
  import opened Services
  import opened PyDict
  import opened Orchestrator

  const Title: string := "# PDF Analysis Report\n\n"
  const TaskHeading: string := "## Task Lists\n\n"
  const StoryHeading: string := "## Stories\n\n"
  const SummaryHeading: string := "## Document Summaries\n\n"
  const ActionItemsLabel: string := "**Action Items:**\n"
  const CharactersLabel: string := "**Characters:** "
  const ThemesLabel: string := "**Themes:** "

  /** `w` begins with `p`. */
  predicate StartsWith(w: string, p: string) {
    |p| <= |w| && w[..|p|] == p
  }

  /** A second-level markdown heading, the level of the report's sections. */
  predicate IsSectionHeading(w: string) {
    StartsWith(w, "## ")
  }

  /** `### name` line for one file. */
  function FileHeading(name: string): string {
    "### " + name + "\n"
  }

  /** One unchecked checkbox line for an action item. */
  function Checkbox(item: string): string {
    "- [ ] " + item + "\n"
  }

  /** The summary paragraph closing a task or story block. */
  function SummaryParagraph(summary: string): string {
    "\n**Summary:**\n" + summary + "\n\n"
  }

  /** Title and generation metadata. */
  function HeaderWrites(r: Report): seq<string> {
    [ Title,
      "**Generated:** " + r.processingDate + "\n",
      "**Files Processed:** " + NatToDecimal(r.totalDocuments) + " docs from "
        + NatToDecimal(|r.filesProcessed|) + " files\n\n" ]
  }

  function Checkboxes(items: seq<string>): (ws: seq<string>)
    ensures |ws| == |items|
    ensures forall i :: 0 <= i < |items| ==> ws[i] == Checkbox(items[i])
  {
    seq(|items|, i requires 0 <= i < |items| => Checkbox(items[i]))
  }

  /** The block of one task entry. */
  function TaskWrites(e: TaskEntry): seq<string> {
    [FileHeading(e.file), "**Urgency:** " + Show(e.urgency) + "\n\n"]
    + (if |Items(e.tasks)| > 0 then [ActionItemsLabel] + Checkboxes(Items(e.tasks)) else [])
    + [SummaryParagraph(e.summary)]
  }

  function CharactersLine(e: StoryEntry): string {
    CharactersLabel + Join(", ", Items(e.characters)) + "\n"
  }

  function ThemesLine(e: StoryEntry): string {
    ThemesLabel + Join(", ", Items(e.themes)) + "\n"
  }

  /** The block of one story entry. */
  function StoryWrites(e: StoryEntry): seq<string> {
    [FileHeading(e.file)]
    + (if |Items(e.characters)| > 0 then [CharactersLine(e)] else [])
    + (if |Items(e.themes)| > 0 then [ThemesLine(e)] else [])
    + [SummaryParagraph(e.summary)]
  }

  /** The block of one `summaries` entry. */
  function SummaryWrites(name: string, info: SummaryInfo): seq<string> {
    [FileHeading(name), "**Type:** " + info.contentType + "\n", "**Summary:**\n" + info.summary + "\n\n"]
  }

  function TaskBlocks(es: seq<TaskEntry>): seq<string> {
    if |es| == 0 then [] else TaskWrites(es[0]) + TaskBlocks(es[1..])
  }

  function StoryBlocks(es: seq<StoryEntry>): seq<string> {
    if |es| == 0 then [] else StoryWrites(es[0]) + StoryBlocks(es[1..])
  }

  function SummaryBlocks(keys: seq<string>, entries: map<string, SummaryInfo>): seq<string>
    requires forall i :: 0 <= i < |keys| ==> keys[i] in entries
  {
    if |keys| == 0 then []
    else SummaryWrites(keys[0], entries[keys[0]]) + SummaryBlocks(keys[1..], entries)
  }

  function TaskSection(r: Report): seq<string> {
    if |r.taskLists| > 0 then [TaskHeading] + TaskBlocks(r.taskLists) else []
  }

  function StorySection(r: Report): seq<string> {
    if |r.stories| > 0 then [StoryHeading] + StoryBlocks(r.stories) else []
  }

  function SummarySection(r: Report): seq<string>
    requires Valid(r.summaries)
  {
    [SummaryHeading] + SummaryBlocks(r.summaries.keys, r.summaries.entries)
  }

  /** Every `f.write` of the report, in order. */
  function Writes(r: Report): seq<string>
    requires Valid(r.summaries)
  {
    HeaderWrites(r) + TaskSection(r) + StorySection(r) + SummarySection(r)
  }

  function Concat(ws: seq<string>): string {
    if |ws| == 0 then "" else ws[0] + Concat(ws[1..])
  }

  /** The content of the markdown report file. */
  function Markdown(r: Report): string
    requires Valid(r.summaries)
  {
    Concat(Writes(r))
  }

  /** Writing two runs of chunks one after the other writes their texts one
      after the other. */
  lemma {:induction false} ConcatAppend(a: seq<string>, b: seq<string>)
    ensures Concat(a + b) == Concat(a) + Concat(b)
    decreases |a|
  {
    if |a| == 0 {
      assert a + b == b;
    } else {
      ConcatAppend(a[1..], b);
      assert (a + b)[1..] == a[1..] + b;
    }
  }

  /** The report file's text is the header's text, then the task section's,
      then the stories section's, then the summaries section's. */
  lemma MarkdownLayout(r: Report)
    requires Valid(r.summaries)
    ensures Markdown(r) == Concat(HeaderWrites(r)) + Concat(TaskSection(r))
                           + Concat(StorySection(r)) + Concat(SummarySection(r))
  {
    ConcatAppend(HeaderWrites(r) + TaskSection(r) + StorySection(r), SummarySection(r));
    ConcatAppend(HeaderWrites(r) + TaskSection(r), StorySection(r));
    ConcatAppend(HeaderWrites(r), TaskSection(r));
  }

  // ---------------------------------------------------------------------
  // What the report shows

  /** A write that does not open with "## " is not a section heading. */
  lemma NotSection(w: string)
    requires (|w| > 0 && w[0] != '#') || (|w| > 1 && w[1] != '#') || (|w| > 2 && w[2] != ' ')
    ensures !IsSectionHeading(w)
  {
  }

  /** None of the three header writes is a section heading. */
  lemma HeaderHasNoSection(r: Report)
    ensures forall w :: w in HeaderWrites(r) ==> !IsSectionHeading(w)
  {
    var ws := HeaderWrites(r);
    NotSection(ws[0]);
    NotSection(ws[1]);
    NotSection(ws[2]);
  }

  lemma FileHeadingIsNotSection(name: string)
    ensures !IsSectionHeading(FileHeading(name))
  {
    NotSection(FileHeading(name));
  }

  lemma TaskWritesHaveNoSection(e: TaskEntry)
    ensures forall w :: w in TaskWrites(e) ==> !IsSectionHeading(w)
  {
    var urgency := "**Urgency:** " + Show(e.urgency) + "\n\n";
    var items := Items(e.tasks);
    var middle := if |items| > 0 then [ActionItemsLabel] + Checkboxes(items) else [];
    assert TaskWrites(e) == [FileHeading(e.file), urgency] + middle + [SummaryParagraph(e.summary)];
    FileHeadingIsNotSection(e.file);
    NotSection(urgency);
    NotSection(SummaryParagraph(e.summary));
    NotSection(ActionItemsLabel);
    forall i | 0 <= i < |items|
      ensures !IsSectionHeading(Checkbox(items[i]))
    {
      NotSection(Checkbox(items[i]));
    }
  }

  lemma {:induction false} TaskBlocksHaveNoSection(es: seq<TaskEntry>)
    ensures forall w :: w in TaskBlocks(es) ==> !IsSectionHeading(w)
    decreases |es|
  {
    if |es| > 0 {
      TaskWritesHaveNoSection(es[0]);
      TaskBlocksHaveNoSection(es[1..]);
    }
  }

  lemma StoryWritesHaveNoSection(e: StoryEntry)
    ensures forall w :: w in StoryWrites(e) ==> !IsSectionHeading(w)
  {
    FileHeadingIsNotSection(e.file);
    NotSection(CharactersLine(e));
    NotSection(ThemesLine(e));
    NotSection(SummaryParagraph(e.summary));
  }

  lemma {:induction false} StoryBlocksHaveNoSection(es: seq<StoryEntry>)
    ensures forall w :: w in StoryBlocks(es) ==> !IsSectionHeading(w)
    decreases |es|
  {
    if |es| > 0 {
      StoryWritesHaveNoSection(es[0]);
      StoryBlocksHaveNoSection(es[1..]);
    }
  }

  lemma {:induction false} SummaryBlocksHaveNoSection(keys: seq<string>, entries: map<string, SummaryInfo>)
    requires forall i :: 0 <= i < |keys| ==> keys[i] in entries
    ensures forall w :: w in SummaryBlocks(keys, entries) ==> !IsSectionHeading(w)
    decreases |keys|
  {
    if |keys| > 0 {
      var ws := SummaryWrites(keys[0], entries[keys[0]]);
      FileHeadingIsNotSection(keys[0]);
      NotSection(ws[1]);
      NotSection(ws[2]);
      SummaryBlocksHaveNoSection(keys[1..], entries);
    }
  }

  /** The writes of each section: its heading, then writes that are not
      section headings. So only the three section headings are second-level
      headings; no other write is one, whatever text the files, summaries or
      items contain. */
  lemma SectionsShape(r: Report)
    requires Valid(r.summaries)
    ensures forall w :: w in HeaderWrites(r) ==> !IsSectionHeading(w)
    ensures forall w :: w in TaskSection(r) ==> !IsSectionHeading(w) || w == TaskHeading
    ensures forall w :: w in StorySection(r) ==> !IsSectionHeading(w) || w == StoryHeading
    ensures forall w :: w in SummarySection(r) ==> !IsSectionHeading(w) || w == SummaryHeading
  {
    HeaderHasNoSection(r);
    TaskBlocksHaveNoSection(r.taskLists);
    StoryBlocksHaveNoSection(r.stories);
    SummaryBlocksHaveNoSection(r.summaries.keys, r.summaries.entries);
  }

  /** "## Task Lists" is written if and only if there are task entries. */
  lemma TaskSectionIffTasks(r: Report)
    requires Valid(r.summaries)
    ensures TaskHeading in Writes(r) <==> |r.taskLists| > 0
  {
    SectionsShape(r);
    assert IsSectionHeading(TaskHeading);
    assert TaskHeading != StoryHeading && TaskHeading != SummaryHeading;
    if |r.taskLists| > 0 {
      assert Writes(r)[|HeaderWrites(r)|] == TaskHeading;
    }
  }

  /** "## Stories" is written if and only if there are story entries. */
  lemma StorySectionIffStories(r: Report)
    requires Valid(r.summaries)
    ensures StoryHeading in Writes(r) <==> |r.stories| > 0
  {
    SectionsShape(r);
    assert IsSectionHeading(StoryHeading);
    assert StoryHeading != TaskHeading && StoryHeading != SummaryHeading;
    if |r.stories| > 0 {
      assert Writes(r)[|HeaderWrites(r)| + |TaskSection(r)|] == StoryHeading;
    }
  }

  /** Each summaries entry contributes three writes, in key order: the
      `### name` heading, the type line and the summary. */
  lemma {:induction false} SummaryBlocksInOrder(keys: seq<string>, entries: map<string, SummaryInfo>)
    requires forall i :: 0 <= i < |keys| ==> keys[i] in entries
    ensures |SummaryBlocks(keys, entries)| == 3 * |keys|
    ensures forall i :: 0 <= i < |keys| ==> SummaryBlocks(keys, entries)[3 * i] == FileHeading(keys[i])
    ensures forall i :: 0 <= i < |keys| ==>
              SummaryBlocks(keys, entries)[3 * i + 1] == SummaryWrites(keys[i], entries[keys[i]])[1]
    ensures forall i :: 0 <= i < |keys| ==>
              SummaryBlocks(keys, entries)[3 * i + 2] == SummaryWrites(keys[i], entries[keys[i]])[2]
    decreases |keys|
  {
    if |keys| > 0 {
      var head := SummaryWrites(keys[0], entries[keys[0]]);
      var rest := SummaryBlocks(keys[1..], entries);
      SummaryBlocksInOrder(keys[1..], entries);
      var blocks := SummaryBlocks(keys, entries);
      assert blocks == head + rest;
      forall i | 0 <= i < |keys|
        ensures blocks[3 * i] == FileHeading(keys[i])
        ensures blocks[3 * i + 1] == SummaryWrites(keys[i], entries[keys[i]])[1]
        ensures blocks[3 * i + 2] == SummaryWrites(keys[i], entries[keys[i]])[2]
      {
        if i > 0 {
          var k := keys[1..][i - 1];
          assert keys[i] == k;
          assert blocks[3 * i] == rest[3 * (i - 1)] == FileHeading(k);
          assert blocks[3 * i + 1] == rest[3 * (i - 1) + 1] == SummaryWrites(k, entries[k])[1];
          assert blocks[3 * i + 2] == rest[3 * (i - 1) + 2] == SummaryWrites(k, entries[k])[2];
        }
      }
    }
  }

  /** "## Document Summaries" is always written, after every other section,
      followed by one block per summaries entry in the dict's order, each
      opening with that file's `### name` heading. */
  lemma SummarySectionAlways(r: Report)
    requires Valid(r.summaries)
    ensures var n := |r.summaries.keys|;
            var ws := Writes(r);
            && |ws| >= 3 * n + 1
            && ws[|ws| - 3 * n - 1] == SummaryHeading
            && forall i :: 0 <= i < n ==> ws[|ws| - 3 * n + 3 * i] == FileHeading(r.summaries.keys[i])
  {
    var prefix := HeaderWrites(r) + TaskSection(r) + StorySection(r);
    var blocks := SummaryBlocks(r.summaries.keys, r.summaries.entries);
    assert Writes(r) == prefix + ([SummaryHeading] + blocks);
    SummaryBlocksInOrder(r.summaries.keys, r.summaries.entries);
    SummaryTail(prefix, blocks, r.summaries.keys);
  }

  /** Whatever precedes it, a summary section ends the writes: its heading
      sits `3 * |keys| + 1` writes from the end, then one block per key. */
  lemma SummaryTail(prefix: seq<string>, blocks: seq<string>, keys: seq<string>)
    requires |blocks| == 3 * |keys|
    requires forall i :: 0 <= i < |keys| ==> blocks[3 * i] == FileHeading(keys[i])
    ensures var ws := prefix + ([SummaryHeading] + blocks);
            && |ws| >= 3 * |keys| + 1
            && ws[|ws| - 3 * |keys| - 1] == SummaryHeading
            && forall i :: 0 <= i < |keys| ==> ws[|ws| - 3 * |keys| + 3 * i] == FileHeading(keys[i])
  {
    var ws := prefix + ([SummaryHeading] + blocks);
    assert ws[|prefix|] == SummaryHeading;
    forall i | 0 <= i < |keys|
      ensures ws[|ws| - 3 * |keys| + 3 * i] == FileHeading(keys[i])
    {
      assert ws[|prefix| + 1 + 3 * i] == blocks[3 * i];
    }
  }

  /** "**Action Items:**" is written in a task block if and only if the entry
      has action items, and then it is followed by one unchecked checkbox
      line per item, in order. */
  lemma ActionItemsIffTasks(e: TaskEntry)
    ensures ActionItemsLabel in TaskWrites(e) <==> |Items(e.tasks)| > 0
    ensures |Items(e.tasks)| > 0 ==>
              TaskWrites(e)[2 .. 3 + |Items(e.tasks)|] == [ActionItemsLabel] + Checkboxes(Items(e.tasks))
  {
    var ws := TaskWrites(e);
    assert FileHeading(e.file)[0] == '#';
    assert ("**Urgency:** " + Show(e.urgency) + "\n\n")[2] == 'U';
    assert SummaryParagraph(e.summary)[0] == '\n';
    assert ActionItemsLabel[0] == '*' && ActionItemsLabel[2] == 'A';
    if |Items(e.tasks)| == 0 {
      assert ws == [FileHeading(e.file), "**Urgency:** " + Show(e.urgency) + "\n\n", SummaryParagraph(e.summary)];
    }
  }

  /** The characters line is written in a story block if and only if the
      entry has characters, and likewise the themes line; each joins the
      items with ", ". */
  lemma StoryLinesIffItems(e: StoryEntry)
    ensures CharactersLine(e) in StoryWrites(e) <==> |Items(e.characters)| > 0
    ensures ThemesLine(e) in StoryWrites(e) <==> |Items(e.themes)| > 0
  {
    assert FileHeading(e.file)[0] == '#';
    assert SummaryParagraph(e.summary)[0] == '\n';
    assert CharactersLine(e)[0] == '*' && CharactersLine(e)[2] == 'C';
    assert ThemesLine(e)[0] == '*' && ThemesLine(e)[2] == 'T';
  }

  // ---------------------------------------------------------------------
  // Where each entry's block lands in the report

  /** Regrouping runs of writes does not change them. */
  lemma Regroup3(a: seq<string>, b: seq<string>, c: seq<string>)
    ensures a + (b + c) == a + b + c
  {
  }

  /** Regrouping seven runs of writes, the two ways the section lemmas need. */
  lemma Regroup7(a: seq<string>, b: seq<string>, c: seq<string>, d: seq<string>,
                 e: seq<string>, f: seq<string>, g: seq<string>)
    ensures a + (b + (c + d + e)) + f + g == a + b + c + d + e + f + g
    ensures a + b + (c + (d + e + f)) + g == a + b + c + d + e + f + g
  {
  }

  /** Rendering two runs of task entries writes the first run's blocks, then
      the second's. */
  lemma {:induction false} TaskBlocksAppend(a: seq<TaskEntry>, b: seq<TaskEntry>)
    ensures TaskBlocks(a + b) == TaskBlocks(a) + TaskBlocks(b)
    decreases |a|
  {
    if |a| == 0 {
      assert a + b == b;
    } else {
      var head := TaskWrites(a[0]);
      assert (a + b)[0] == a[0] && (a + b)[1..] == a[1..] + b;
      assert TaskBlocks(a + b) == head + TaskBlocks(a[1..] + b);
      TaskBlocksAppend(a[1..], b);
    }
  }

  /** Rendering two runs of story entries writes the first run's blocks, then
      the second's. */
  lemma {:induction false} StoryBlocksAppend(a: seq<StoryEntry>, b: seq<StoryEntry>)
    ensures StoryBlocks(a + b) == StoryBlocks(a) + StoryBlocks(b)
    decreases |a|
  {
    if |a| == 0 {
      assert a + b == b;
    } else {
      var head := StoryWrites(a[0]);
      assert (a + b)[0] == a[0] && (a + b)[1..] == a[1..] + b;
      assert StoryBlocks(a + b) == head + StoryBlocks(a[1..] + b);
      StoryBlocksAppend(a[1..], b);
    }
  }

  /** The `i`-th task entry's block is written in the task section, after
      the blocks of the entries before it and before the blocks of the
      entries after it. */
  lemma TaskEntryPlaced(r: Report, i: nat)
    requires Valid(r.summaries) && i < |r.taskLists|
    ensures Writes(r) == HeaderWrites(r) + [TaskHeading] + TaskBlocks(r.taskLists[..i])
                         + TaskWrites(r.taskLists[i]) + TaskBlocks(r.taskLists[i + 1..])
                         + StorySection(r) + SummarySection(r)
  {
    var es := r.taskLists;
    TaskBlocksSplit(es, i);
    assert Writes(r) == HeaderWrites(r) + ([TaskHeading] + TaskBlocks(es)) + StorySection(r) + SummarySection(r);
    Regroup7(HeaderWrites(r), [TaskHeading], TaskBlocks(es[..i]), TaskWrites(es[i]), TaskBlocks(es[i + 1..]),
             StorySection(r), SummarySection(r));
  }

  /** A run of task blocks is the blocks before entry `i`, entry `i`'s
      block, then the blocks after it. */
  lemma TaskBlocksSplit(es: seq<TaskEntry>, i: nat)
    requires i < |es|
    ensures TaskBlocks(es) == TaskBlocks(es[..i]) + TaskWrites(es[i]) + TaskBlocks(es[i + 1..])
  {
    var rest := [es[i]] + es[i + 1..];
    assert es == es[..i] + rest;
    TaskBlocksAppend(es[..i], rest);
    assert rest[0] == es[i] && rest[1..] == es[i + 1..];
    assert TaskBlocks(rest) == TaskWrites(es[i]) + TaskBlocks(es[i + 1..]);
    Regroup3(TaskBlocks(es[..i]), TaskWrites(es[i]), TaskBlocks(es[i + 1..]));
  }

  /** The `i`-th story entry's block is written in the stories section,
      after the blocks of the entries before it and before the blocks of the
      entries after it. */
  lemma StoryEntryPlaced(r: Report, i: nat)
    requires Valid(r.summaries) && i < |r.stories|
    ensures Writes(r) == HeaderWrites(r) + TaskSection(r) + [StoryHeading] + StoryBlocks(r.stories[..i])
                         + StoryWrites(r.stories[i]) + StoryBlocks(r.stories[i + 1..])
                         + SummarySection(r)
  {
    var es := r.stories;
    StoryBlocksSplit(es, i);
    assert Writes(r) == HeaderWrites(r) + TaskSection(r) + ([StoryHeading] + StoryBlocks(es)) + SummarySection(r);
    Regroup7(HeaderWrites(r), TaskSection(r), [StoryHeading], StoryBlocks(es[..i]), StoryWrites(es[i]),
             StoryBlocks(es[i + 1..]), SummarySection(r));
  }

  /** A run of story blocks is the blocks before entry `i`, entry `i`'s
      block, then the blocks after it. */
  lemma StoryBlocksSplit(es: seq<StoryEntry>, i: nat)
    requires i < |es|
    ensures StoryBlocks(es) == StoryBlocks(es[..i]) + StoryWrites(es[i]) + StoryBlocks(es[i + 1..])
  {
    var rest := [es[i]] + es[i + 1..];
    assert es == es[..i] + rest;
    StoryBlocksAppend(es[..i], rest);
    assert rest[0] == es[i] && rest[1..] == es[i + 1..];
    assert StoryBlocks(rest) == StoryWrites(es[i]) + StoryBlocks(es[i + 1..]);
    Regroup3(StoryBlocks(es[..i]), StoryWrites(es[i]), StoryBlocks(es[i + 1..]));
  }

  /** Every write of every task entry's block is written to the report. */
  lemma EveryTaskEntryRendered(r: Report)
    requires Valid(r.summaries)
    ensures forall i, w :: 0 <= i < |r.taskLists| && w in TaskWrites(r.taskLists[i]) ==> w in Writes(r)
  {
    forall i, w | 0 <= i < |r.taskLists| && w in TaskWrites(r.taskLists[i])
      ensures w in Writes(r)
    {
      TaskEntryPlaced(r, i);
    }
  }

  /** Every write of every story entry's block is written to the report. */
  lemma EveryStoryEntryRendered(r: Report)
    requires Valid(r.summaries)
    ensures forall i, w :: 0 <= i < |r.stories| && w in StoryWrites(r.stories[i]) ==> w in Writes(r)
  {
    forall i, w | 0 <= i < |r.stories| && w in StoryWrites(r.stories[i])
      ensures w in Writes(r)
    {
      StoryEntryPlaced(r, i);
    }
  }

  /** A run of task blocks holds the "**Action Items:**" label if and only if
      one of its entries has action items. */
  lemma {:induction false} ActionItemsInBlocks(es: seq<TaskEntry>)
    ensures ActionItemsLabel in TaskBlocks(es) <==> exists i :: 0 <= i < |es| && |Items(es[i].tasks)| > 0
    decreases |es|
  {
    if |es| > 0 {
      ActionItemsIffTasks(es[0]);
      ActionItemsInBlocks(es[1..]);
      if i :| 0 <= i < |es| && |Items(es[i].tasks)| > 0 {
        if i > 0 {
          assert es[1..][i - 1] == es[i];
        }
      }
      if j :| 0 <= j < |es[1..]| && |Items(es[1..][j].tasks)| > 0 {
        assert es[j + 1] == es[1..][j];
      }
    }
  }

  /** A write that differs from `p` at some position of `p` does not begin
      with `p`. */
  lemma NotStartsWith(w: string, p: string, k: nat)
    requires k < |p| && (k >= |w| || w[k] != p[k])
    ensures !StartsWith(w, p)
  {
  }

  /** No write of a story block opens with a label `p` that starts "**" and
      names neither the characters nor the themes. */
  lemma {:induction false} NoLabelInStoryBlocks(es: seq<StoryEntry>, p: string)
    requires |p| > 2 && p[0] == '*' && p[2] != 'C' && p[2] != 'T'
    ensures forall w :: w in StoryBlocks(es) ==> !StartsWith(w, p)
    decreases |es|
  {
    if |es| > 0 {
      var e := es[0];
      NotStartsWith(FileHeading(e.file), p, 0);
      NotStartsWith(CharactersLine(e), p, 2);
      NotStartsWith(ThemesLine(e), p, 2);
      NotStartsWith(SummaryParagraph(e.summary), p, 0);
      NoLabelInStoryBlocks(es[1..], p);
    }
  }

  /** Neither the header nor a section heading opens with a label `p` that
      starts "**" and names neither the generation date nor the file
      count. */
  lemma NoLabelInHeadings(r: Report, p: string)
    requires |p| > 2 && p[0] == '*' && p[2] != 'G' && p[2] != 'F'
    ensures forall w :: w in HeaderWrites(r) ==> !StartsWith(w, p)
    ensures !StartsWith(TaskHeading, p) && !StartsWith(StoryHeading, p) && !StartsWith(SummaryHeading, p)
  {
    var hs := HeaderWrites(r);
    NotStartsWith(hs[0], p, 0);
    NotStartsWith(hs[1], p, 2);
    NotStartsWith(hs[2], p, 2);
    NotStartsWith(TaskHeading, p, 0);
    NotStartsWith(StoryHeading, p, 0);
    NotStartsWith(SummaryHeading, p, 0);
  }

  /** Outside the task section's blocks, no write opens with a label `p`
      that starts "**" and names none of the characters, themes, summary,
      generation date, file count or type; so every write of the report
      opening with `p` belongs to a task block. */
  lemma NoLabelOutsideTasks(r: Report, p: string)
    requires Valid(r.summaries)
    requires |p| > 3 && p[0] == '*' && p[2] !in "CTSGF" && p[3] != 'y'
    ensures forall w :: w in Writes(r) && StartsWith(w, p) ==> w in TaskBlocks(r.taskLists)
    ensures forall w :: w in TaskBlocks(r.taskLists) ==> w in Writes(r)
  {
    NoLabelInHeadings(r, p);
    NoLabelInStoryBlocks(r.stories, p);
    NoLabelInSummaryBlocks(r.summaries.keys, r.summaries.entries, p);
    assert |r.taskLists| == 0 ==> TaskBlocks(r.taskLists) == [];
  }

  /** The report carries the "**Action Items:**" label if and only if some
      task entry has action items. */
  lemma ActionItemsInReport(r: Report)
    requires Valid(r.summaries)
    ensures ActionItemsLabel in Writes(r) <==>
            exists i :: 0 <= i < |r.taskLists| && |Items(r.taskLists[i].tasks)| > 0
  {
    NoLabelOutsideTasks(r, ActionItemsLabel);
    assert StartsWith(ActionItemsLabel, ActionItemsLabel);
    ActionItemsInBlocks(r.taskLists);
  }

  /** Within one story block, a write opening with the Characters label is
      there if and only if the entry has characters, and likewise for the
      Themes label. */
  lemma StoryLabelsInWrites(e: StoryEntry)
    ensures (exists w :: w in StoryWrites(e) && StartsWith(w, CharactersLabel)) <==> |Items(e.characters)| > 0
    ensures (exists w :: w in StoryWrites(e) && StartsWith(w, ThemesLabel)) <==> |Items(e.themes)| > 0
  {
    var heading := FileHeading(e.file);
    var summary := SummaryParagraph(e.summary);
    NotStartsWith(heading, CharactersLabel, 0);
    NotStartsWith(heading, ThemesLabel, 0);
    NotStartsWith(summary, CharactersLabel, 0);
    NotStartsWith(summary, ThemesLabel, 0);
    NotStartsWith(CharactersLine(e), ThemesLabel, 2);
    NotStartsWith(ThemesLine(e), CharactersLabel, 2);
    assert StartsWith(CharactersLine(e), CharactersLabel) by {
      assert CharactersLine(e)[..|CharactersLabel|] == CharactersLabel;
    }
    assert StartsWith(ThemesLine(e), ThemesLabel) by {
      assert ThemesLine(e)[..|ThemesLabel|] == ThemesLabel;
    }
  }

  /** A run of story blocks holds a Characters line if and only if one of its
      entries has characters, and a Themes line if and only if one has
      themes. */
  lemma {:induction false} StoryLabelsInBlocks(es: seq<StoryEntry>)
    ensures (exists w :: w in StoryBlocks(es) && StartsWith(w, CharactersLabel)) <==>
            exists i :: 0 <= i < |es| && |Items(es[i].characters)| > 0
    ensures (exists w :: w in StoryBlocks(es) && StartsWith(w, ThemesLabel)) <==>
            exists i :: 0 <= i < |es| && |Items(es[i].themes)| > 0
    decreases |es|
  {
    if |es| > 0 {
      StoryLabelsInWrites(es[0]);
      StoryLabelsInBlocks(es[1..]);
      assert StoryBlocks(es) == StoryWrites(es[0]) + StoryBlocks(es[1..]);
      forall i | 0 < i < |es|
        ensures es[i] == es[1..][i - 1]
      {
      }
      if j :| 0 <= j < |es[1..]| && |Items(es[1..][j].characters)| > 0 {
        assert es[j + 1] == es[1..][j];
      }
      if j :| 0 <= j < |es[1..]| && |Items(es[1..][j].themes)| > 0 {
        assert es[j + 1] == es[1..][j];
      }
    }
  }

  /** No write of a task block opens with a label `p` that starts "**" and
      names neither the urgency nor the action items. */
  lemma {:induction false} NoLabelInTaskBlocks(es: seq<TaskEntry>, p: string)
    requires |p| > 2 && p[0] == '*' && p[2] != 'U' && p[2] != 'A'
    ensures forall w :: w in TaskBlocks(es) ==> !StartsWith(w, p)
    decreases |es|
  {
    if |es| > 0 {
      var e := es[0];
      var urgency := "**Urgency:** " + Show(e.urgency) + "\n\n";
      var items := Items(e.tasks);
      var middle := if |items| > 0 then [ActionItemsLabel] + Checkboxes(items) else [];
      assert TaskWrites(e) == [FileHeading(e.file), urgency] + middle + [SummaryParagraph(e.summary)];
      NotStartsWith(FileHeading(e.file), p, 0);
      NotStartsWith(urgency, p, 2);
      NotStartsWith(ActionItemsLabel, p, 2);
      NotStartsWith(SummaryParagraph(e.summary), p, 0);
      forall i | 0 <= i < |items|
        ensures !StartsWith(Checkbox(items[i]), p)
      {
        NotStartsWith(Checkbox(items[i]), p, 0);
      }
      NoLabelInTaskBlocks(es[1..], p);
    }
  }

  /** No write of a summary block opens with a label `p` that starts "**"
      and names neither the type nor the summary. */
  lemma {:induction false} NoLabelInSummaryBlocks(keys: seq<string>, entries: map<string, SummaryInfo>, p: string)
    requires forall i :: 0 <= i < |keys| ==> keys[i] in entries
    requires |p| > 3 && p[0] == '*' && p[2] != 'S' && p[3] != 'y'
    ensures forall w :: w in SummaryBlocks(keys, entries) ==> !StartsWith(w, p)
    decreases |keys|
  {
    if |keys| > 0 {
      var ws := SummaryWrites(keys[0], entries[keys[0]]);
      NotStartsWith(ws[0], p, 0);
      NotStartsWith(ws[1], p, 3);
      NotStartsWith(ws[2], p, 2);
      NoLabelInSummaryBlocks(keys[1..], entries, p);
    }
  }

  /** Outside the stories section, no write opens with a label `p` that
      starts "**" and names none of the urgency, action items, summary,
      generation date, file count or type; so the report holds a write
      opening with `p` exactly when a story block does. */
  lemma NoLabelOutsideStories(r: Report, p: string)
    requires Valid(r.summaries)
    requires |p| > 3 && p[0] == '*' && p[2] !in "UASGF" && p[3] != 'y'
    ensures forall w :: w in HeaderWrites(r) ==> !StartsWith(w, p)
    ensures forall w :: w in TaskSection(r) ==> !StartsWith(w, p)
    ensures forall w :: w in SummarySection(r) ==> !StartsWith(w, p)
    ensures (exists w :: w in Writes(r) && StartsWith(w, p)) <==>
            (exists w :: w in StoryBlocks(r.stories) && StartsWith(w, p))
  {
    NoLabelInHeadings(r, p);
    NoLabelInTaskBlocks(r.taskLists, p);
    NoLabelInSummaryBlocks(r.summaries.keys, r.summaries.entries, p);
    assert |r.stories| == 0 ==> StoryBlocks(r.stories) == [];
  }

  /** The report holds a Characters line if and only if some story entry has
      characters, and a Themes line if and only if some story entry has
      themes. */
  lemma StoryLinesInReport(r: Report)
    requires Valid(r.summaries)
    ensures (exists w :: w in Writes(r) && StartsWith(w, CharactersLabel)) <==>
            exists i :: 0 <= i < |r.stories| && |Items(r.stories[i].characters)| > 0
    ensures (exists w :: w in Writes(r) && StartsWith(w, ThemesLabel)) <==>
            exists i :: 0 <= i < |r.stories| && |Items(r.stories[i].themes)| > 0
  {
    NoLabelOutsideStories(r, CharactersLabel);
    NoLabelOutsideStories(r, ThemesLabel);
    StoryLabelsInBlocks(r.stories);
  }

  /** The report file opens with its title, then the generation date line,
      then the line giving the page count and the file count as decimal
      numbers, which read back as those counts. */
  lemma MarkdownHeader(r: Report)
    requires Valid(r.summaries)
    ensures StartsWith(Markdown(r), Title)
    ensures Writes(r)[0] == Title
    ensures Writes(r)[1] == "**Generated:** " + r.processingDate + "\n"
    ensures Writes(r)[2] == "**Files Processed:** " + NatToDecimal(r.totalDocuments) + " docs from "
                            + NatToDecimal(|r.filesProcessed|) + " files\n\n"
    ensures DecimalValue(NatToDecimal(r.totalDocuments)) == r.totalDocuments
    ensures DecimalValue(NatToDecimal(|r.filesProcessed|)) == |r.filesProcessed|
  {
    var ws := Writes(r);
    assert ws[0] == Title;
    assert Markdown(r) == Title + Concat(ws[1..]);
    DecimalRoundTrip(r.totalDocuments);
    DecimalRoundTrip(|r.filesProcessed|);
  }
}

=== FILE: scenarios.dfy ===
/** Concrete runs of the analyzer against fixed model and parser behaviour. */
module Scenarios {
  import opened Base
  import opened Text
  import opened Services
  import opened Classifier
  import opened Summarizer
  import opened Orchestrator

  const TodoItems: seq<string> := ["Buy milk", "Call Alice by Friday"]

  /** The classification the model returns for the to-do file. */
  const TodoReply: string :=
    "{\"content_type\": \"task\", \"action_items\": [\"Buy milk\", \"Call Alice by Friday\"], \"urgency_level\": \"medium\"}"

  /** A model that answers the classification prompt with a JSON object
      and every summary prompt with a fixed text. */
  function TodoModel(p: Prompt): Reply {
    if p.ClassifyPrompt? then Completed(TodoReply) else Completed("- Buy milk")
  }

  /** A parser that knows the one reply above and rejects everything else. */
  function TodoParser(t: string): Option<Object> {
    if t == TodoReply then
      Some(map["content_type" := Str("task"), "action_items" := Strs(TodoItems), "urgency_level" := Str("medium")])
    else None
  }

  /** One to-do file classified as a task with two action items and medium
      urgency gives exactly one task entry carrying them, and no story. */
  lemma TodoFileBecomesOneTaskEntry()
    ensures ParserKeepsTypeText(TodoParser)
    ensures var pages := [Page("Buy milk. Call Alice by Friday.", Some("todo.pdf"))];
            var r := ProcessDocuments(pages, "2025-03-10T00:00:00", TodoModel, TodoParser).value;
            && r.filesProcessed == ["todo.pdf"]
            && r.taskLists == [TaskEntry("todo.pdf", Strs(TodoItems), Str("medium"), "- Buy milk")]
            && r.stories == []
  {
    var pages := [Page("Buy milk. Call Alice by Friday.", Some("todo.pdf"))];
    var groups := Group(pages);
    assert pages[..0] == [];
    assert groups.keys == ["todo.pdf"];
    assert groups.entries["todo.pdf"] == ["Buy milk. Call Alice by Friday."];
    var text := Join(PageSeparator, ["Buy milk. Call Alice by Friday."]);
    var c := Categorize(TodoModel, TodoParser, text);
    assert c == TodoParser(TodoReply).value;
    assert ContentType(c) == "task";
    assert Lower("task") == "task";
    assert IsTaskType("task");
    var r := Step(Initial("2025-03-10T00:00:00", 1), "todo.pdf", ["Buy milk. Call Alice by Friday."], TodoModel, TodoParser);
    assert ProcessDocuments(pages, "2025-03-10T00:00:00", TodoModel, TodoParser).value == r;
  }

  /** A model whose classification reply is not JSON, and whose summary
      reply tells which template it was given. */
  function ProseModel(p: Prompt): Reply {
    match p
    case ClassifyPrompt(_) => Completed("This looks like a story.")
    case SummaryPrompt(TaskTemplate, _) => Completed("A task list.")
    case SummaryPrompt(StoryTemplate, _) => Completed("A story summary.")
    case SummaryPrompt(GeneralTemplate, _) => Completed("A summary.")
  }

  /** A parser that rejects every reply. */
  function RejectingParser(t: string): Option<Object> {
    None
  }

  /** An unparsable classification is kept verbatim under "raw_analysis",
      the file's content type falls back to "general" and the generic
      template is used, so the file is neither a task list nor a story. */
  lemma UnparsableClassificationIsGeneral()
    ensures ParserKeepsTypeText(RejectingParser)
    ensures var pages := [Page("Once upon a time.", Some("tale.pdf"))];
            var r := ProcessDocuments(pages, "2025-03-10T00:00:00", ProseModel, RejectingParser).value;
            && r.categorized.entries == map["tale.pdf" := map["raw_analysis" := Str("This looks like a story.")]]
            && r.summaries.entries == map["tale.pdf" := SummaryInfo("general", "A summary.")]
            && r.taskLists == [] && r.stories == []
  {
    var pages := [Page("Once upon a time.", Some("tale.pdf"))];
    var groups := Group(pages);
    assert pages[..0] == [];
    assert groups.keys == ["tale.pdf"];
    assert groups.entries["tale.pdf"] == ["Once upon a time."];
    var text := Join(PageSeparator, ["Once upon a time."]);
    assert text == "Once upon a time.";
    var c := Categorize(ProseModel, RejectingParser, text);
    assert c == map["raw_analysis" := Str("This looks like a story.")];
    assert ContentType(c) == "general";
    GeneralIsGeneric();
    var summary := GenerateSummary(ProseModel, text, "general");
    assert summary == "A summary.";
    var r := Step(Initial("2025-03-10T00:00:00", 1), "tale.pdf", ["Once upon a time."], ProseModel, RejectingParser);
    assert ProcessDocuments(pages, "2025-03-10T00:00:00", ProseModel, RejectingParser).value == r;
  }
}

=== FILE: services.dfy ===
/** The narrow contracts of the two black boxes the analyzer talks to: the
    language-model completion service and the JSON parser. Both are passed to
    the analyzer as function values, so every property proved of the analyzer
    holds for every behaviour of the model and of the parser. */
module Services {
  import opened Base
  import opened Text

  /** A JSON value as the analyzer consumes it: a string or a list of strings. */
  datatype Value = Str(s: string) | Strs(items: seq<string>)

  /** A parsed JSON object. */
  type Object = map<string, Value>

  /** `o.get(key, default)` */
  function Lookup(o: Object, key: string, default: Value): Value {
    if key in o then o[key] else default
  }

  /** Python truthiness of a value: a non-empty string or list. */
  predicate Truthy(v: Value) {
    match v
    case Str(s) => s != ""
    case Strs(xs) => xs != []
  }

  /** What a Python `for x in v` loop visits: the items of a list, or the
      one-character strings of a string. A loop runs at least once exactly
      when the value is truthy, which is what lets the report test a list's
      truthiness by its items. */
  function Items(v: Value): (xs: seq<string>)
    ensures |xs| > 0 <==> Truthy(v)
    ensures v.Strs? ==> xs == v.items
    ensures forall i :: 0 <= i < |xs| ==> v.Str? ==> |xs[i]| == 1
  {
    match v
    case Strs(items) => items
    case Str(s) => seq(|s|, i requires 0 <= i < |s| => [s[i]])
  }

  /** Gluing the characters a loop visits in a string back together gives
      the string: `"".join(s) == s`. */
  lemma {:induction false} ItemsOfStringRejoin(s: string)
    ensures Join("", Items(Str(s))) == s
    decreases |s|
  {
    if |s| > 1 {
      ItemsOfStringRejoin(s[1..]);
      assert Items(Str(s))[1..] == Items(Str(s[1..]));
      assert s == [s[0]] + s[1..];
    } else if |s| == 1 {
      assert s == [s[0]];
      assert Items(Str(s))[0] == [s[0]];
    }
  }

  /** The text an f-string shows for a value: a string as itself, a list in
      Python's `['a', 'b']` notation. */
  function Show(v: Value): string {
    match v
    case Str(s) => s
    case Strs(items) => "[" + Join(", ", Quoted(items)) + "]"
  }

  /** Each item between single quotes. */
  function Quoted(items: seq<string>): seq<string> {
    if |items| == 0 then [] else ["'" + items[0] + "'"] + Quoted(items[1..])
  }

  /** A string value is shown as itself; a list is shown bracketed, each
      item quoted, separated by a comma and a space. */
  lemma ShowRendering(s: string, a: string, b: string)
    ensures Show(Str(s)) == s
    ensures Show(Strs([])) == "[]"
    ensures Show(Strs([a])) == "['" + a + "']"
    ensures Show(Strs([a, b])) == "['" + a + "', '" + b + "']"
  {
    ShowSingle(a);
    ShowPair(a, b);
  }

  /** A one-item list, quoted and bracketed. */
  lemma ShowSingle(a: string)
    ensures Show(Strs([a])) == "['" + a + "']"
  {
    assert [a][1..] == [];
    assert Quoted([a]) == ["'" + a + "'"];
  }

  /** A two-item list, quoted, separated and bracketed. */
  lemma ShowPair(a: string, b: string)
    ensures Show(Strs([a, b])) == "['" + a + "', '" + b + "']"
  {
    var qa, qb := "'" + a + "'", "'" + b + "'";
    QuotedPair(a, b);
    assert Show(Strs([a, b])) == "[" + (qa + ", " + qb) + "]";
  }

  /** Two quoted items joined by a comma and a space. */
  lemma QuotedPair(a: string, b: string)
    ensures Join(", ", Quoted([a, b])) == "'" + a + "'" + ", " + "'" + b + "'"
  {
    var qa, qb := "'" + a + "'", "'" + b + "'";
    assert [a, b][1..] == [b];
    assert [b][1..] == [];
    assert Quoted([b]) == [qb];
    assert Quoted([a, b]) == [qa, qb];
    assert [qa, qb][1..] == [qb];
  }

  /** The three summary prompts. */
  datatype Template = TaskTemplate | StoryTemplate | GeneralTemplate

  /** What is sent to the language model: the fixed wording of each prompt is
      identified by its constructor; only the embedded text varies. */
  datatype Prompt =
    | ClassifyPrompt(text: string)
    | SummaryPrompt(template: Template, text: string)

  /** One completion request either returns text or raises; `message` is the
      raised exception's `str(e)`. */
  datatype Reply = Completed(text: string) | CallFailed(message: string)
}

=== FILE: summarizer.dfy ===
/** `PDFAnalyzer.generate_summary`: a content type picks one of three prompt
    templates, the text is cut to 4000 characters, and a failed request is
    turned into an error message in place of the summary. The two content
    type vocabularies are also the ones the orchestrator routes by. */
module Summarizer {
  import opened Text
  import opened Services

  /** Characters of a file's text that reach the summary prompt. */
  const SummaryLimit: nat := 4000

  /** Content types (after lowering) that select the task template. */
  const TaskTypes: seq<string> := ["task", "action", "todo"]

  /** Content types (after lowering) that select the story template. */
  const StoryTypes: seq<string> := ["story", "narrative", "fiction"]

  /** `content_type.lower() in ["task", "action", "todo"]` */
  predicate IsTaskType(contentType: string) {
    Lower(contentType) in TaskTypes
  }

  /** `content_type.lower() in ["story", "narrative", "fiction"]` */
  predicate IsStoryType(contentType: string) {
    Lower(contentType) in StoryTypes
  }

  /** Membership ignores letter case but is otherwise exact: "TODO" and
      "Action" are task-like, "Fiction" is story-like, while "tasks" and
      " task" are neither. */
  lemma VocabularyExamples()
    ensures IsTaskType("TODO") && IsTaskType("Action") && IsStoryType("Fiction")
    ensures !IsTaskType("tasks") && !IsStoryType("tasks")
    ensures !IsTaskType(" task") && !IsStoryType(" task")
  {
    assert Lower("TODO") == "todo";
    assert Lower("Action") == "action";
    assert Lower("Fiction") == "fiction";
    assert |Lower("tasks")| == 5 && Lower("tasks")[4] == 's';
    assert Lower(" task")[0] == ' ';
  }

  /** No content type is both task-like and story-like, so the order of the
      two tests never matters. */
  lemma VocabulariesDisjoint(contentType: string)
    ensures !(IsTaskType(contentType) && IsStoryType(contentType))
  {
  }

  /** The template `generate_summary` selects: exactly one of the three,
      the task template precisely for task-like types, the story template
      precisely for story-like types, the generic one for everything else. */
  function TemplateFor(contentType: string): (t: Template)
    ensures t == TaskTemplate <==> IsTaskType(contentType)
    ensures t == StoryTemplate <==> IsStoryType(contentType)
    ensures t == GeneralTemplate <==> !IsTaskType(contentType) && !IsStoryType(contentType)
  {
    VocabulariesDisjoint(contentType);
    if IsTaskType(contentType) then TaskTemplate
    else if IsStoryType(contentType) then StoryTemplate
    else GeneralTemplate
  }

  /** The default content type "general" is neither task-like nor
      story-like: it selects the generic template. */
  lemma GeneralIsGeneric()
    ensures !IsTaskType("general") && !IsStoryType("general")
    ensures TemplateFor("general") == GeneralTemplate
  {
    assert Lower("general") == "general";
  }

  /** The choice of template ignores letter case. */
  lemma TemplateForIgnoresCase(a: string, b: string)
    requires Lower(a) == Lower(b)
    ensures TemplateFor(a) == TemplateFor(b)
  {
  }

  /** Lowering a content type first does not change the template. */
  lemma TemplateForLowered(contentType: string)
    ensures TemplateFor(Lower(contentType)) == TemplateFor(contentType)
  {
    LowerIdempotent(contentType);
  }

  /** The prompt `generate_summary` sends: the selected template around
      exactly the first 4000 characters of the text, or all of a shorter
      text. */
  function SummaryRequest(text: string, contentType: string): (p: Prompt)
    ensures p.SummaryPrompt? && p.template == TemplateFor(contentType)
    ensures |p.text| == if |text| <= SummaryLimit then |text| else SummaryLimit
    ensures p.text <= text
  {
    SummaryPrompt(TemplateFor(contentType), Prefix(text, SummaryLimit))
  }

  /** The summary text substituted for a failed request. */
  function SummaryError(message: string): string {
    "Error generating summary: " + message
  }

  /** `generate_summary(text, content_type)`: the model's reply to the
      selected prompt, or the error text when the request fails. */
  function GenerateSummary(llm: Prompt -> Reply, text: string, contentType: string): (s: string)
    ensures llm(SummaryRequest(text, contentType)).Completed? ==>
              s == llm(SummaryRequest(text, contentType)).text
    ensures llm(SummaryRequest(text, contentType)).CallFailed? ==>
              s == SummaryError(llm(SummaryRequest(text, contentType)).message)
  {
    match llm(SummaryRequest(text, contentType))
    case Completed(reply) => reply
    case CallFailed(message) => SummaryError(message)
  }

  /** The summary does not depend on the letter case of the content type:
      lowering it first gives the same summary. */
  lemma GenerateSummaryIgnoresCase(llm: Prompt -> Reply, text: string, contentType: string)
    ensures GenerateSummary(llm, text, Lower(contentType)) == GenerateSummary(llm, text, contentType)
  {
    TemplateForLowered(contentType);
  }

  /** Text beyond the first 4000 characters never influences the summary. */
  lemma {:induction false} GenerateSummaryIgnoresTail(llm: Prompt -> Reply, text: string, tail: string, contentType: string)
    requires |text| >= SummaryLimit
    ensures GenerateSummary(llm, text + tail, contentType) == GenerateSummary(llm, text, contentType)
  {
    PrefixOfExtension(text, tail, SummaryLimit);
  }
}

=== FILE: text.dfy ===
/** The string operations the analyzer relies on, written out with Python's
    meaning: slicing `s[:n]`, `sep.join(parts)`, `s.lower()` (ASCII letters
    only) and `str(n)` for a non-negative integer. */
module Text {

  /** Python's `s[:n]`: the first `n` characters, or all of `s` when shorter. */
  function Prefix(s: string, n: nat): (r: string)
    ensures |r| == if |s| <= n then |s| else n
    ensures r <= s
  {
    if |s| <= n then s else s[..n]
  }

  /** Two texts that agree on their first `n` characters have the same
      `n`-prefix, whatever follows. */
  lemma PrefixOfExtension(s: string, t: string, n: nat)
    requires |s| >= n
    ensures Prefix(s + t, n) == Prefix(s, n)
  {
    assert (s + t)[..n] == s[..n];
  }

  /** Python's `sep.join(parts)`. */
  function Join(sep: string, parts: seq<string>): (r: string)
    ensures |parts| == 0 ==> r == ""
    ensures |parts| == 1 ==> r == parts[0]
    ensures |r| == TotalLength(parts) + (if |parts| == 0 then 0 else (|parts| - 1) * |sep|)
  {
    if |parts| == 0 then ""
    else if |parts| == 1 then parts[0]
    else parts[0] + sep + Join(sep, parts[1..])
  }

  /** Sum of the lengths of `parts`. */
  function TotalLength(parts: seq<string>): nat {
    if |parts| == 0 then 0 else |parts[0]| + TotalLength(parts[1..])
  }

  /** Joining one more part appends the separator and that part: the text of
      the parts appears in their order, separated exactly once between
      neighbours. */
  lemma {:induction false} JoinSnoc(sep: string, parts: seq<string>, last: string)
    requires |parts| > 0
    ensures Join(sep, parts + [last]) == Join(sep, parts) + sep + last
    decreases |parts|
  {
    var ps := parts + [last];
    if |parts| == 1 {
      assert ps[1..] == [last];
    } else {
      assert ps[1..] == parts[1..] + [last];
      JoinSnoc(sep, parts[1..], last);
    }
  }

  /** ASCII case folding of one character. */
  function LowerChar(c: char): char {
    if 'A' <= c <= 'Z' then (c as int + 32) as char else c
  }

  /** Python's `s.lower()`, restricted to ASCII letters: the result has
      no upper-case letter, every other character stays where it was, and
      an upper-case letter becomes its lower-case partner. */
  function Lower(s: string): (r: string)
    ensures |r| == |s|
    ensures forall i :: 0 <= i < |r| ==> !('A' <= r[i] <= 'Z')
    ensures forall i :: 0 <= i < |s| && !('A' <= s[i] <= 'Z') ==> r[i] == s[i]
    ensures forall i :: 0 <= i < |s| && 'A' <= s[i] <= 'Z' ==> r[i] as int == s[i] as int + 32
  {
    seq(|s|, i requires 0 <= i < |s| => LowerChar(s[i]))
  }

  /** Lowering twice is lowering once. */
  lemma LowerIdempotent(s: string)
    ensures Lower(Lower(s)) == Lower(s)
  {
  }

  /** The decimal digit character for 0 <= d < 10. */
  function DigitChar(d: nat): char
    requires d < 10
  {
    ('0' as int + d) as char
  }

  /** The numeric value of a character, for '0'..'9'. */
  function DigitValue(c: char): nat
    requires '0' <= c <= '9'
  {
    (c as int - '0' as int) as nat
  }

  predicate IsDigits(s: string) {
    forall i :: 0 <= i < |s| ==> '0' <= s[i] <= '9'
  }

  /** Python's `str(n)` for a non-negative integer: decimal, no leading zero. */
  function NatToDecimal(n: nat): (r: string)
    ensures |r| > 0 && IsDigits(r)
    ensures r[0] == '0' ==> n == 0
    ensures |r| > 1 ==> r[0] != '0'
    ensures n == 0 ==> r == "0"
  {
    if n < 10 then [DigitChar(n)]
    else NatToDecimal(n / 10) + [DigitChar(n % 10)]
  }

  /** Reads a string of digits as a decimal number. */
  function DecimalValue(s: string): nat
    requires IsDigits(s)
  {
    if |s| == 0 then 0
    else 10 * DecimalValue(s[..|s| - 1]) + DigitValue(s[|s| - 1])
  }

  /** `str(n)` is read back as `n`: the rendering loses nothing. */
  lemma {:induction false} DecimalRoundTrip(n: nat)
    ensures DecimalValue(NatToDecimal(n)) == n
  {
    var s := NatToDecimal(n);
    if n >= 10 {
      DecimalRoundTrip(n / 10);
      assert s[..|s| - 1] == NatToDecimal(n / 10);
    }
  }
}
